=== FILE: README.md ===
# Budget tracker core, modelled in Dafny

This project models the logic of a small personal-finance dashboard (Next.js with MongoDB). Users
record transactions: a signed amount, a description, a date, one of fourteen categories and an
optional `income`/`expense` tag. The dashboard and a stats endpoint aggregate them. The model
covers:

- the shapes and enumerations of `types/index.ts`, and the document validation of
  `models/schema.ts`;
- the summary cards: total income, total expenses, balance, per-category expense totals, and the
  "Top Spending" category with its strict-greater tie rule;
- the dashboard's `getStats` pipelines: monthly income/expense groups sorted by month and
  labelled `YYYY-MM`, and an expense-only category breakdown. The dashboard also takes the
  five most recent transactions;
- the stats endpoint's separate pipelines: monthly net sums, the magnitude of each category's
  net sum, and a `totalExpenses` field that is really the net sum of all amounts;
- `GET`/`POST /api/transactions`: listing newest first, the truthiness guard, creation, and the
  serialisation that normalises `type`;
- the transaction form: field and form validation, edits, the initial state, and the sign
  applied on submit.

The database is replaced by an input sequence of documents. A failing database call is an
`Option` or `bool` input. Each MongoDB stage is a pure function in module `Aggregation`:
`$match` (`Match`), `$group` with buckets in order of first appearance (`GroupBy`), `$sum`
(`SumEach`), `$sort` (an insertion `Sort`) and `$limit` (`Take`). Where the store's output
order is unspecified (category groups), the result is a `map`. Amounts are `real`: JavaScript
number rounding is not modelled. A date is a (year, month, day, millisecond) record ordered
lexicographically. `$year`/`$month` read its first two fields.

Modules, one per source file plus shared helpers:

- `Wrappers`: `Option`.
- `Types`: `types/index.ts`.
- `Format`: `trim`, integer to string, `padStart`, the month label.
- `Aggregation`: the pipeline stages and the sum algebra.
- `SummaryCards`: `components/summary-cards.tsx`.
- `Dashboard`: `app/page.tsx`.
- `StatsRoute`: `app/api/stats/route.ts`.
- `Schema`: `models/schema.ts`.
- `TransactionsRoute`: `app/api/transactions/route.ts`.
- `TransactionForm`: `components/transaction-form.tsx`.

Behaviour of the code worth noting:

- `POST` answers 201 only when Mongoose accepts and stores the document. Any validation or cast
  failure after the truthiness guard is thrown and answered 500, not 400.
- Because the guard demands a truthy category, the schema's `'Other'` default is never used by
  `POST`.
- The form also refuses amounts above 1000000, not only non-positive ones.
- On the stats endpoint, each category value is the magnitude of that category's net sum, and
  `totalExpenses` is the net sum of all amounts. Income and expense in one category cancel there.
- `POST` parses the body and connects to the database before its guard, so a body that does not
  parse or a failed connection is answered 500 even when required fields are missing.

## Model

| member | source | states |
|---|---|---|
| Types.ParseCategory | types/index.ts:3-20 | a string is accepted as a category only if it is one of the names, and the category returned carries exactly that name |
| Types.CategoryNamesDistinct | types/index.ts:3-18 | `CATEGORIES` has 14 pairwise distinct entries, and `'Other'` and `'Income'` are among them |
| Types.NameRoundTrip | types/index.ts:3-20 | every category's name reads back as that same category |
| Types.CategoryTypeIsCategoryNames | types/index.ts:20 | a string is a `CategoryType` exactly when it occurs in `CATEGORIES` |
| Types.ParseTxType | types/index.ts:29 | a `type` tag is accepted exactly when it is `"income"` or `"expense"`, and reads back unchanged |
| Format.Trim | components/transaction-form.tsx:71 | `trim` removes only leading and trailing whitespace, and what remains neither starts nor ends with whitespace |
| Format.TrimEmptyIffBlank | components/transaction-form.tsx:71 | the trimmed string is empty exactly when the string is all whitespace |
| Format.PadStart | app/page.tsx:75 | padding yields width max(length, target), keeps the string as a suffix, and fills only with the pad character |
| Format.IntToString | app/page.tsx:75 | `String(year)`: the decimal digits without leading zeros, preceded by `-` exactly for a negative year |
| Format.MonthLabel | app/page.tsx:75 | the label is exactly `String(year)`, a dash, and two digits |
| Format.IntToStringRoundTrip | app/page.tsx:75 | the year's decimal text reads back as the year |
| Format.MonthLabelRoundTrip | app/page.tsx:75 | reading a label back gives its year and month, so months 1..12 print as `01`..`12` |
| Format.MonthLabelInjective | app/api/stats/route.ts:51 | two (year, month) pairs share a label only if they are equal |
| Aggregation.Match | app/page.tsx:63 | `$match` keeps only matching documents, each matching one exactly as often as it occurs in the input and each other one not at all; a one-element input is kept exactly when it matches |
| Aggregation.MatchConcat | app/page.tsx:63 | filtering a concatenation is the concatenation of the filtered parts, so the kept documents stay in input order |
| Aggregation.GroupBy | app/api/stats/route.ts:25-32 | `$group` makes one bucket per distinct key, each holding exactly that key's documents, in order of first appearance, covering every document |
| Aggregation.GroupKeys | app/api/stats/route.ts:27-28 | the group keys are exactly the keys occurring among the documents |
| Aggregation.MembersSum | app/api/stats/route.ts:29 | a group's `$sum` equals the reference sum over the documents with that key |
| Aggregation.GroupByPreservesSum | app/api/stats/route.ts:25-32 | the sums of all groups add up to the sum over all documents |
| Aggregation.ToMap | app/page.tsx:81-84 | the map's keys are the group keys, and each distinct key maps to its group's total |
| Aggregation.SumSplitsBySign | components/summary-cards.tsx:14-22 | the sum of all amounts is the sum of the positive parts plus the sum of the negative parts |
| Aggregation.Sort | app/page.tsx:57 | sorting returns a permutation of its input, ordered by the given total order |
| Aggregation.SortNewestFirst | app/api/transactions/route.ts:17 | `sort({ date: -1 })` returns the same documents, each no older than the next |
| Aggregation.Take | app/api/stats/route.ts:47 | `limit(n)` returns the first min(n, length) documents |
| Aggregation.PrefixIsNewest | app/page.tsx:123 | in a newest-first list, nothing after a prefix is newer than anything in it |
| Aggregation.Recent | app/api/stats/route.ts:45-47 | the recent list has min(5, n) documents taken from the input, newest first, and no document left out is newer than one kept |
| Aggregation.MonthBuckets | app/page.tsx:38-57 | month groups come in strictly ascending (year, month) order, each holding exactly that month's documents, covering all documents |
| Aggregation.MonthBucketsPreserveSum | app/page.tsx:38-58 | sorting the month groups loses nothing: their totals add up to the total over all documents |
| Aggregation.MapSeqPermutation | app/api/transactions/route.ts:19-33 | serialising a reordered list gives a reordering of the serialised list |
| SummaryCards.TotalIncome | components/summary-cards.tsx:14-16 | total income is non-negative and equals the sum of the positive parts of all amounts |
| SummaryCards.TotalExpenses | components/summary-cards.tsx:18-20 | total expenses is non-negative and equals minus the sum of the negative parts of all amounts |
| SummaryCards.BalanceIsNetSum | components/summary-cards.tsx:22 | the balance is the sum of all amounts, and dropping zero amounts does not change it |
| SummaryCards.CategorySpendPositive | components/summary-cards.tsx:27-33 | a category's spend is non-negative, and positive exactly when it has a negative-amount transaction |
| SummaryCards.BucketSumIsCategorySpend | components/summary-cards.tsx:25-35 | a category's accumulated `Math.abs` total equals the reference spend for that category |
| SummaryCards.CategoryTotals | components/summary-cards.tsx:25-35 | one entry per category with an expense, and only those; each holds that category's positive spend; entries follow first-expense order; totals add up to total expenses |
| SummaryCards.TopCategory | components/summary-cards.tsx:37-45 | the chosen amount is at least every total; "None" exactly when no total is positive; otherwise the first entry reaching the maximum wins |
| SummaryCards.Summarize | components/summary-cards.tsx:14-45 | income and expenses are non-negative; balance = income − expenses = net sum; top is "None" exactly when no amount is negative; the top amount is the largest category spend; ties go to the category whose first expense comes first |
| SummaryCards.EmptySummary | components/summary-cards.tsx:14-45 | no transactions give zero totals and top category "None" |
| SummaryCards.SalaryGroceriesBus | components/summary-cards.tsx:14-45 | +2000 income, −50 Food & Dining and −30 Transportation give income 2000, expenses 80, balance 1920, top Food & Dining at 50 |
| SummaryCards.TieGoesToFirst | components/summary-cards.tsx:40-44 | two categories with equal spend: the one inserted first stays on top |
| Dashboard.MonthlyGroups | app/page.tsx:38-57 | one group per month that occurs, in strictly ascending order; income is that month's positive total, expense minus its expense total, so expense ≤ 0 ≤ income |
| Dashboard.FormatMonths | app/page.tsx:74-78 | one point per month group; each label is exactly `${year}-${MM}` of its group (`Format.MonthLabel`), reads back as its month, labels are distinct, income is kept and the expense is its non-negative magnitude |
| Dashboard.MonthlyTotals | app/page.tsx:38-58 | over all months, income adds up to total income and the formatted expense to total expenses |
| Dashboard.CategoryData | app/page.tsx:61-71 | the category breakdown has exactly the categories with an expense, each valued at its positive spend |
| Dashboard.HomePage | app/page.tsx:14-124 | the list is the store newest first, or empty on failure; the cards are computed from it; the recent list is its first min(5, n) entries; the charts are empty when the stats call fails |
| Dashboard.HomeCards | app/page.tsx:100-113 | the cards show the collection's income, expenses and net balance when it could be listed, and zeros with top category "None" otherwise |
| Dashboard.SummaryIgnoresOrder | app/page.tsx:17 | the totals do not depend on the order the store returns documents in |
| Dashboard.HomeRecentIsRecent | app/page.tsx:123 | the dashboard's recent list is exactly the five newest transactions |
| StatsRoute.MonthlyNet | app/api/stats/route.ts:11-54 | one entry per month in ascending order, labelled exactly `${year}-${MM}` of its month (`Format.MonthLabel`) so that the label reads back as that month, holding the net signed sum of that month's amounts |
| StatsRoute.CategoryValues | app/api/stats/route.ts:25-32 | every occurring category appears, expense or not, valued at the magnitude of its net signed sum |
| StatsRoute.TotalField | app/api/stats/route.ts:35-42 | `totalExpenses` is the net sum of all amounts, and 0 when there are none |
| StatsRoute.SingleGroup | app/api/stats/route.ts:38 | grouping by `null` gives one group when there are documents and none otherwise |
| StatsRoute.MonthlyNetSumsToTotal | app/api/stats/route.ts:11-22 | the monthly amounts add up to `totalExpenses` |
| StatsRoute.TotalFieldIsBalance | app/api/stats/route.ts:64 | `totalExpenses` equals the cards' balance, and equals their total expenses only when income is twice the expenses |
| StatsRoute.Stats | app/api/stats/route.ts:6-74 | a failure answers 500 `Failed to fetch stats`; otherwise the four fields are exactly the monthly net sums, the category magnitudes, the net total and the five most recent transactions; category values are non-negative, the monthly amounts add up to the total, and at most 5 recent entries come newest first |
| StatsRoute.CategoriesCancel | app/api/stats/route.ts:56-59 | +50 and −50 in one category give that category the value 0 |
| StatsRoute.LoneExpenseIsNegative | app/api/stats/route.ts:64 | a single expense of 30 yields `totalExpenses` −30 |
| Schema.CategoryWithDefault | models/schema.ts:15 | a missing category becomes `'Other'`, and a given one is kept |
| Schema.TransactionViolations | models/schema.ts:6-22 | each validator fires exactly on its own failure: missing amount, missing or empty description, empty category, category outside the enum, tag outside the enum |
| Schema.ValidateTransaction | models/schema.ts:6-24 | a document is stored exactly when the amount is present, the description is non-empty, the defaulted category is in the enum and the tag is absent or allowed; what is stored keeps the given fields and is an `ITransaction` |
| Schema.AmountAndDescriptionRequired | models/schema.ts:8-9 | a document without amount or without description is refused for that reason |
| Schema.DefaultCategoryPasses | models/schema.ts:11-15 | leaving the category out stores `'Other'`, which passes the enum check |
| Schema.UnknownCategoryRefused | models/schema.ts:11-14 | a category outside `CATEGORIES` is refused |
| Schema.TypeTagOptional | models/schema.ts:17-21 | with the other fields valid, the document passes exactly when the tag is absent, `income` or `expense` |
| Schema.TypeNotTiedToSign | models/schema.ts:6-22 | either tag is accepted with any amount, an `income` tag on a negative amount included |
| Schema.BudgetViolations | models/schema.ts:27-36 | each budget validator fires exactly on its own failure, the month bounds included |
| Schema.ValidateBudget | models/schema.ts:27-36 | a budget is stored exactly when its category is in the enum, amount and year are present and its month lies in [1, 12]; the result is an `IBudget` |
| Schema.BudgetMonthBounds | models/schema.ts:34 | months 1 and 12 pass; 0 is below the minimum and 13 above the maximum |
| TransactionsRoute.NormalizeKind | app/api/transactions/route.ts:29 | the tag survives exactly when it is `income` or `expense`, and then unchanged |
| TransactionsRoute.Serialize | app/api/transactions/route.ts:23-32 | id, amount, description, date and category are unchanged; the result is an `ITransaction`; it is the document itself exactly when its tag was already allowed |
| TransactionsRoute.SerializeIdempotent | app/api/transactions/route.ts:60-69 | serialising a serialised record changes nothing |
| TransactionsRoute.UnknownKindDropped | app/api/transactions/route.ts:29 | a stored tag such as `refund` is dropped and the amount kept |
| TransactionsRoute.List | app/api/transactions/route.ts:14-40 | `GET` answers every stored document serialised, newest first, or 500 `Failed to fetch transactions` |
| TransactionsRoute.CastString | app/api/transactions/route.ts:57 | an undefined or null string field stays absent, a string is kept, any other JSON value fails to cast |
| TransactionsRoute.CastBody | app/api/transactions/route.ts:57 | the body is cast field by field; it is refused exactly when some field has the wrong JSON type or `date` or `category` is null, which gets no default |
| TransactionsRoute.Create | app/api/transactions/route.ts:42-76 | a body that does not parse or a failed connection answers 500 before the guard; after them, 400 `Missing required fields` exactly when a required field is falsy; 201 only after a successful write, with the stored fields equal to the body's; every other failure is 500 `Failed to create transaction` |
| TransactionsRoute.CreateSucceeds | app/api/transactions/route.ts:57-71 | a well-typed body with truthy fields, a known category and an allowed tag is stored and answered 201, keeping its tag |
| TransactionsRoute.ZeroAmountOrEmptyDescriptionRejected | app/api/transactions/route.ts:46-55 | once the body is parsed and the database connected, amount 0 or an empty description is answered 400 |
| TransactionsRoute.DefaultCategoryUnreachable | app/api/transactions/route.ts:46-50 | once the body is parsed and the database connected, a body without a category is answered 400, so the schema default is never reached |
| TransactionForm.AmountError | components/transaction-form.tsx:66-69 | no message exactly for amounts in (0, 1000000]; the "greater than 0" message at or below 0; "too large" above the limit |
| TransactionForm.DescriptionError | components/transaction-form.tsx:70-71 | a message exactly when the description is blank |
| TransactionForm.ValidateField | components/transaction-form.tsx:64-75 | only amount and description edits can produce a message; an amount gets none exactly when it lies in (0, 1000000], `Amount must be greater than 0` at or below 0 and `Amount is too large` above the limit; a description gets `Description is required` exactly when blank |
| TransactionForm.FormErrors | components/transaction-form.tsx:83-86 | each entry is `validateField`'s message: the amount's on its magnitude (`Amount must be greater than 0` for 0, `Amount is too large` above the limit, empty otherwise) and the description's on its trimmed content (`Description is required` exactly when blank) |
| TransactionForm.ValidateFormIff | components/transaction-form.tsx:82-90 | the form passes exactly when the amount's magnitude lies in (0, 1000000] and the description is not blank |
| TransactionForm.IsFormValid | components/transaction-form.tsx:92-96 | the Save button is enabled exactly when the amount is non-zero, the description is not blank and no message is pending |
| TransactionForm.EnabledMeansValid | components/transaction-form.tsx:82-96 | with the amount within the limit, an enabled button means the form passes; a passing form with no pending message enables it |
| TransactionForm.HandleChange | components/transaction-form.tsx:77-80 | only the edited field and its error entry change, the entry taking that field's fresh message |
| TransactionForm.EditRoundTrip | components/transaction-form.tsx:78 | writing back a field's own value leaves the form data unchanged |
| TransactionForm.InitialForm | components/transaction-form.tsx:49-55 | each field takes the existing value when there is one (a non-empty one for the category) and otherwise 0, `""`, now and `'Other'`; the type is `expense` exactly when the existing amount is negative |
| TransactionForm.InitialState | components/transaction-form.tsx:49-60 | the first state shows no message, and the button is enabled exactly when the existing amount is non-zero and its description not blank, so a new form starts disabled |
| TransactionForm.AdjustedAmount | components/transaction-form.tsx:104 | the submitted amount has the entered magnitude, non-positive for an expense and non-negative otherwise |
| TransactionForm.UnchangedAmountRoundTrip | components/transaction-form.tsx:50-104 | opening a transaction and saving it without edits sends back its own amount |
| TransactionForm.Submit | components/transaction-form.tsx:98-120 | a request is sent exactly when the form validates: `PUT` to the transaction's URL when editing, `POST` otherwise, the amount's sign following the type and the other fields unchanged |
| TransactionForm.SaveUnchangedRoundTrip | components/transaction-form.tsx:49-120 | saving an unedited, valid existing transaction sends a `PUT` with its own amount and description |

## Left out

- Rendering: the charts, the pie colours and percentages, the layout, the navigation and the
  dialogs. They have no behaviour to state beyond display.
- Mongoose plumbing: `dbConnect`, connection caching and the hot-reload model guard
  (`models/schema.ts:38-43`). The store is an input sequence, and its failures are an input.
- Timestamps (`createdAt`, `updatedAt`) and `toISOString`. Dates are abstract records; how a date
  string becomes a `Date` is the parameter `castDate` of `TransactionsRoute.CastBody`.
- `TransactionsRoute.CastBody`, `TransactionsRoute.CastString`: Mongoose's casting between JSON
  types is not modelled: a string amount, a number or boolean description or category (`true`
  becomes `"true"`), and a boolean amount (`true` becomes 1) count as a cast failure (500),
  though the real handler may store them.
- Mongoose's collection of several violations into one error object. The model returns the set
  of failing validators.
- `Schema.ValidateTransaction`: fields beyond the five declared ones are dropped, as Mongoose's
  strict mode does. No other strict-mode behaviour is modelled.
- `TransactionForm.InitialForm`: takes the existing record's date as is. `new Date(...)` parsing
  is not modelled.
- `parseFloat(...) || 0` on the amount input. `TransactionForm.Edit` carries the already-parsed
  number.
- The `fetch` itself, `router.refresh`, loading flags and `console.error`. `Submit` returns the
  request it would send.
- `app/api/transactions/[id]/route.ts` (GET/PUT/DELETE by id) is not part of this model. `PUT`
  appears only as the method the form chooses.
- JavaScript number semantics: amounts are `real`. Double rounding, `NaN` (falsy) and infinities
  are not modelled.
- Time zones in `$year`/`$month`: a date's calendar fields are taken as given.
- The order of the category `$group` output is unspecified. Both category results are maps, so
  no order is promised.

=== FILE: aggregation.dfy ===
/**
 * The MongoDB aggregation stages the reporting views are built from, as pure functions over
 * the transaction collection: `$match` (Match), the partition step of `$group` (GroupBy), the
 * `$sum` accumulator (Sum, SumEach), `$sort` (Sort) and `.limit(n)` / `slice(0, n)` (Take).
 * `$group` leaves its output order unspecified; GroupBy picks first-appearance order, which is
 * also the insertion order of a JavaScript object built by `reduce`.
 */
module Aggregation {
  import opened Types

  // ---------------------------------------------------------------- sums

  /** `$sum` of `f` over `s`, or `reduce((acc, x) => acc + f(x), 0)`: a left fold from 0. */
  function Sum<T>(s: seq<T>, f: T -> real): real {
    if |s| == 0 then 0.0 else Sum(s[..|s| - 1], f) + f(s[|s| - 1])
  }

  lemma {:induction false} SumAppend<T>(a: seq<T>, b: seq<T>, f: T -> real)
    ensures Sum(a + b, f) == Sum(a, f) + Sum(b, f)
    decreases |b|
  {
    if |b| > 0 {
      assert (a + b)[..|a + b| - 1] == a + b[..|b| - 1];
      SumAppend(a, b[..|b| - 1], f);
    } else {
      assert a + b == a;
    }
  }

  lemma {:induction false} SumSingleton<T>(x: T, f: T -> real)
    ensures Sum([x], f) == f(x)
  {
    assert [x][..0] == [];
  }

  /** Sums of pointwise equal terms are equal. */
  lemma {:induction false} SumCongruent<T>(s: seq<T>, f: T -> real, g: T -> real)
    requires forall x :: f(x) == g(x)
    ensures Sum(s, f) == Sum(s, g)
  {
    if |s| > 0 {
      SumCongruent(s[..|s| - 1], f, g);
    }
  }

  /** A sum does not depend on the order of its terms. */
  lemma {:induction false} SumPermutation<T>(a: seq<T>, b: seq<T>, f: T -> real)
    requires multiset(a) == multiset(b)
    ensures Sum(a, f) == Sum(b, f)
    decreases |a|
  {
    if |a| > 0 {
      var x := a[|a| - 1];
      assert x in multiset(b);
      var i :| 0 <= i < |b| && b[i] == x;
      var b' := b[..i] + b[i + 1..];
      assert b == b[..i] + [x] + b[i + 1..];
      assert multiset(b') == multiset(b) - multiset{x};
      assert a == a[..|a| - 1] + [x];
      assert multiset(a[..|a| - 1]) == multiset(a) - multiset{x};
      SumPermutation(a[..|a| - 1], b', f);
      SumAppend(b[..i] + [x], b[i + 1..], f);
      SumAppend(b[..i], [x], f);
      SumAppend(b[..i], b[i + 1..], f);
      SumSingleton(x, f);
    } else {
      assert b == [];
    }
  }

  lemma {:induction false} SumNonNegative<T>(s: seq<T>, f: T -> real)
    requires forall i :: 0 <= i < |s| ==> f(s[i]) >= 0.0
    ensures Sum(s, f) >= 0.0
  {
    if |s| > 0 {
      SumNonNegative(s[..|s| - 1], f);
    }
  }

  lemma {:induction false} SumNonPositive<T>(s: seq<T>, f: T -> real)
    requires forall i :: 0 <= i < |s| ==> f(s[i]) <= 0.0
    ensures Sum(s, f) <= 0.0
  {
    if |s| > 0 {
      SumNonPositive(s[..|s| - 1], f);
    }
  }

  // ---------------------------------------------------------------- $match

  /**
   * `$match` / `filter`: the transactions satisfying `keep`, in their original order. Each kept
   * transaction occurs in `r` as often as in `ts`, and a dropped one not at all; the order is
   * stated by `MatchConcat`.
   */
  function Match(ts: seq<Transaction>, keep: Transaction -> bool): (r: seq<Transaction>)
    ensures |r| <= |ts|
    ensures forall i :: 0 <= i < |r| ==> keep(r[i])
    ensures multiset(r) <= multiset(ts)
    ensures forall x :: multiset(r)[x] == if keep(x) then multiset(ts)[x] else 0
    ensures forall i :: 0 <= i < |ts| && keep(ts[i]) ==> ts[i] in r
    ensures |ts| == 1 ==> r == if keep(ts[0]) then ts else []
  {
    if |ts| == 0 then []
    else
      var rest := Match(ts[..|ts| - 1], keep);
      assert ts == ts[..|ts| - 1] + [ts[|ts| - 1]];
      if keep(ts[|ts| - 1]) then rest + [ts[|ts| - 1]] else rest
  }

  /** Filtering a concatenation filters each part and keeps them in order: together with the
      one-element case of `Match`, this pins `Match` down as the order-preserving filter. */
  lemma {:induction false} MatchConcat(a: seq<Transaction>, b: seq<Transaction>, keep: Transaction -> bool)
    ensures Match(a + b, keep) == Match(a, keep) + Match(b, keep)
    decreases |b|
  {
    if |b| > 0 {
      var b' := b[..|b| - 1];
      assert (a + b)[..|a + b| - 1] == a + b';
      assert (a + b)[|a + b| - 1] == b[|b| - 1];
      MatchConcat(a, b', keep);
    } else {
      assert a + b == a;
    }
  }

  /** `xs.map(f)`, and `$project`-like stages that reshape every document alike. */
  function MapSeq<A, B>(xs: seq<A>, f: A -> B): (r: seq<B>)
    ensures |r| == |xs|
    ensures forall i :: 0 <= i < |r| ==> r[i] == f(xs[i])
  {
    if |xs| == 0 then [] else MapSeq(xs[..|xs| - 1], f) + [f(xs[|xs| - 1])]
  }

  lemma {:induction false} MapSeqAppend<A, B>(a: seq<A>, b: seq<A>, f: A -> B)
    ensures MapSeq(a + b, f) == MapSeq(a, f) + MapSeq(b, f)
  {
    var l := MapSeq(a + b, f);
    var r := MapSeq(a, f) + MapSeq(b, f);
    forall i | 0 <= i < |l|
      ensures l[i] == r[i]
    {
      if i < |a| { assert (a + b)[i] == a[i]; } else { assert (a + b)[i] == b[i - |a|]; }
    }
  }

  lemma {:induction false} SplitAt<A>(s: seq<A>, k: nat)
    requires k < |s|
    ensures s == s[..k] + [s[k]] + s[k + 1..]
  {
  }

  /** Removing the element at `k` takes exactly one copy of it out of the multiset. */
  lemma {:induction false} RemoveAt<A>(s: seq<A>, k: nat)
    requires k < |s|
    ensures multiset(s) == multiset(s[..k] + s[k + 1..]) + multiset{s[k]}
  {
    SplitAt(s, k);
  }

  /** Mapping a sequence with one element singled out. */
  lemma {:induction false} MapSeqAround<A, B>(p: seq<A>, x: A, q: seq<A>, f: A -> B)
    ensures MapSeq(p + [x] + q, f) == MapSeq(p, f) + [f(x)] + MapSeq(q, f)
  {
    assert MapSeq([x], f) == [f(x)];
    MapSeqAppend(p, [x], f);
    MapSeqAppend(p + [x], q, f);
  }

  /** Removing an element before mapping removes its image after mapping. */
  lemma {:induction false} MapSeqRemoveAt<A, B>(s: seq<A>, k: nat, f: A -> B)
    requires k < |s|
    ensures multiset(MapSeq(s, f)) == multiset(MapSeq(s[..k] + s[k + 1..], f)) + multiset{f(s[k])}
  {
    var p, x, q := s[..k], s[k], s[k + 1..];
    SplitAt(s, k);
    MapSeqAround(p, x, q, f);
    MapSeqAppend(p, q, f);
    var mp, mq := MapSeq(p, f), MapSeq(q, f);
    calc {
      multiset(mp + [f(x)] + mq);
      multiset(mp) + multiset{f(x)} + multiset(mq);
      multiset(mp + mq) + multiset{f(x)};
    }
  }

  lemma {:induction false} MultisetCancel<T>(p: multiset<T>, q: multiset<T>, x: T)
    requires p + multiset{x} == q + multiset{x}
    ensures p == q
  {
    forall y
      ensures p[y] == q[y]
    {
      assert (p + multiset{x})[y] == (q + multiset{x})[y];
    }
  }

  /** Mapping commutes with reordering: the images of a permutation are a permutation. */
  lemma {:induction false} MapSeqPermutation<A, B>(a: seq<A>, b: seq<A>, f: A -> B)
    requires multiset(a) == multiset(b)
    ensures multiset(MapSeq(a, f)) == multiset(MapSeq(b, f))
    decreases |a|
  {
    if |a| == 0 {
      assert |b| == |multiset(b)| == 0;
    } else {
      var n := |a| - 1;
      var x := a[n];
      assert x in multiset(b);
      var k :| 0 <= k < |b| && b[k] == x;
      var front := a[..n] + a[n + 1..];
      var rest := b[..k] + b[k + 1..];
      RemoveAt(a, n);
      RemoveAt(b, k);
      MultisetCancel(multiset(front), multiset(rest), x);
      MapSeqPermutation(front, rest, f);
      MapSeqRemoveAt(a, n, f);
      MapSeqRemoveAt(b, k, f);
    }
  }

  /** Summing after mapping is summing the composition. */
  lemma {:induction false} SumMapSeq<A, B>(xs: seq<A>, f: A -> B, g: B -> real, h: A -> real)
    requires forall x :: h(x) == g(f(x))
    ensures Sum(MapSeq(xs, f), g) == Sum(xs, h)
  {
    if |xs| > 0 {
      SumMapSeq(xs[..|xs| - 1], f, g, h);
      assert MapSeq(xs, f)[..|xs| - 1] == MapSeq(xs[..|xs| - 1], f);
    }
  }

  // ---------------------------------------------------------------- $group

  /** One `$group` output document before its accumulators: the `_id` and its transactions. */
  datatype Bucket<K> = Bucket(key: K, members: seq<Transaction>)

  /** The transactions whose group key is `k`, in their original order. */
  function Members<K(==)>(ts: seq<Transaction>, key: Transaction -> K, k: K): (r: seq<Transaction>)
    ensures |r| <= |ts|
    ensures forall i :: 0 <= i < |r| ==> key(r[i]) == k
    ensures |r| == 0 <==> forall j :: 0 <= j < |ts| ==> key(ts[j]) != k
  {
    if |ts| == 0 then []
    else
      var rest := Members(ts[..|ts| - 1], key, k);
      if key(ts[|ts| - 1]) == k then rest + [ts[|ts| - 1]] else rest
  }

  /** Position of the first transaction whose group key is `k`; `|ts|` when there is none. */
  function FirstIndex<K(==)>(ts: seq<Transaction>, key: Transaction -> K, k: K): (r: nat)
    ensures r <= |ts|
    ensures r < |ts| ==> key(ts[r]) == k
    ensures forall j :: 0 <= j < r ==> key(ts[j]) != k
  {
    if |ts| == 0 then 0
    else
      var p := FirstIndex(ts[..|ts| - 1], key, k);
      if p < |ts| - 1 then p
      else if key(ts[|ts| - 1]) == k then |ts| - 1
      else |ts|
  }

  predicate DistinctKeys<K(==)>(bs: seq<Bucket<K>>) {
    forall i, j :: 0 <= i < j < |bs| ==> bs[i].key != bs[j].key
  }

  /** Position of the bucket with key `k`; `|bs|` when there is none. */
  function IndexOfKey<K(==)>(bs: seq<Bucket<K>>, k: K): (i: nat)
    ensures i <= |bs|
    ensures i < |bs| ==> bs[i].key == k
    ensures i == |bs| ==> forall j :: 0 <= j < |bs| ==> bs[j].key != k
  {
    if |bs| == 0 then 0 else if bs[0].key == k then 0 else 1 + IndexOfKey(bs[1..], k)
  }

  /** Adds one transaction to the bucket of its key, opening a new bucket at the end when the
      key has not been seen (`if (!acc[k]) acc[k] = …; acc[k] += …`). */
  function Place<K(==)>(bs: seq<Bucket<K>>, k: K, t: Transaction): (r: seq<Bucket<K>>)
    requires DistinctKeys(bs)
    ensures DistinctKeys(r)
    ensures |bs| <= |r| <= |bs| + 1
    ensures forall i :: 0 <= i < |bs| ==> r[i].key == bs[i].key
    ensures forall i :: 0 <= i < |bs| ==>
      r[i].members == if bs[i].key == k then bs[i].members + [t] else bs[i].members
    ensures |r| == |bs| + 1 <==> forall j :: 0 <= j < |bs| ==> bs[j].key != k
    ensures |r| == |bs| + 1 ==> r[|bs|] == Bucket(k, [t])
  {
    var i := IndexOfKey(bs, k);
    if i < |bs| then bs[i := Bucket(k, bs[i].members + [t])] else bs + [Bucket(k, [t])]
  }

  /**
   * The partition performed by `$group` with `_id` computed by `key`: one bucket per key that
   * occurs, each key once, holding exactly the transactions with that key, the buckets in the
   * order in which their keys first occur.
   */
  function GroupBy<K(==)>(ts: seq<Transaction>, key: Transaction -> K): (r: seq<Bucket<K>>)
    ensures DistinctKeys(r)
    ensures forall i :: 0 <= i < |r| ==> r[i].members == Members(ts, key, r[i].key)
    ensures forall i :: 0 <= i < |r| ==> FirstIndex(ts, key, r[i].key) < |ts|
    ensures Covers(r, ts, key)
    ensures forall i, j :: 0 <= i < j < |r| ==>
      FirstIndex(ts, key, r[i].key) < FirstIndex(ts, key, r[j].key)
  {
    if |ts| == 0 then []
    else
      var prefix := ts[..|ts| - 1];
      var t := ts[|ts| - 1];
      var g := GroupBy(prefix, key);
      var r := Place(g, key(t), t);
      GroupByStep(ts, key, g, r);
      r
  }

  /** The keys of a grouping that covers `ts`, and has a witness in `ts` for each key, are
      exactly the keys occurring in `ts`. */
  lemma {:induction false} GroupKeys<K>(bs: seq<Bucket<K>>, ts: seq<Transaction>, key: Transaction -> K)
    requires Covers(bs, ts, key)
    requires forall i :: 0 <= i < |bs| ==> FirstIndex(ts, key, bs[i].key) < |ts|
    ensures (set i | 0 <= i < |bs| :: bs[i].key) == (set j | 0 <= j < |ts| :: key(ts[j]))
  {
    var keys := set i | 0 <= i < |bs| :: bs[i].key;
    var occurring := set j | 0 <= j < |ts| :: key(ts[j]);
    forall k | k in keys
      ensures k in occurring
    {
      var i :| 0 <= i < |bs| && bs[i].key == k;
      var p := FirstIndex(ts, key, k);
      assert key(ts[p]) == k;
    }
    forall k | k in occurring
      ensures k in keys
    {
      var j :| 0 <= j < |ts| && key(ts[j]) == k;
      var i :| 0 <= i < |bs| && bs[i].key == key(ts[j]);
    }
  }

  /** Reference definition: `f` summed over the transactions whose key is `k`. */
  function SumWhere<K(==)>(ts: seq<Transaction>, key: Transaction -> K, k: K, f: Transaction -> real): real {
    if |ts| == 0 then 0.0
    else SumWhere(ts[..|ts| - 1], key, k, f) + (if key(ts[|ts| - 1]) == k then f(ts[|ts| - 1]) else 0.0)
  }

  /** A bucket's accumulator is the reference sum over its key. */
  lemma {:induction false} MembersSum<K>(ts: seq<Transaction>, key: Transaction -> K, k: K, f: Transaction -> real)
    ensures Sum(Members(ts, key, k), f) == SumWhere(ts, key, k, f)
  {
    if |ts| > 0 {
      MembersSum(ts[..|ts| - 1], key, k, f);
      var ms := Members(ts[..|ts| - 1], key, k);
      if key(ts[|ts| - 1]) == k {
        assert (ms + [ts[|ts| - 1]])[..|ms|] == ms;
      }
    }
  }

  /** Every transaction of `ts` has its key among the buckets `bs`. */
  ghost predicate Covers<K>(bs: seq<Bucket<K>>, ts: seq<Transaction>, key: Transaction -> K) {
    forall j :: 0 <= j < |ts| ==> exists i :: 0 <= i < |bs| && bs[i].key == key(ts[j])
  }

  /** The inductive step of GroupBy: placing the last transaction keeps every promise. */
  lemma {:induction false} GroupByStep<K>(ts: seq<Transaction>, key: Transaction -> K, g: seq<Bucket<K>>, r: seq<Bucket<K>>)
    requires |ts| > 0
    requires DistinctKeys(g)
    requires forall i :: 0 <= i < |g| ==> g[i].members == Members(ts[..|ts| - 1], key, g[i].key)
    requires forall i :: 0 <= i < |g| ==> FirstIndex(ts[..|ts| - 1], key, g[i].key) < |ts| - 1
    requires Covers(g, ts[..|ts| - 1], key)
    requires forall i, j :: 0 <= i < j < |g| ==>
      FirstIndex(ts[..|ts| - 1], key, g[i].key) < FirstIndex(ts[..|ts| - 1], key, g[j].key)
    requires r == Place(g, key(ts[|ts| - 1]), ts[|ts| - 1])
    ensures DistinctKeys(r)
    ensures forall i :: 0 <= i < |r| ==> r[i].members == Members(ts, key, r[i].key)
    ensures forall i :: 0 <= i < |r| ==> FirstIndex(ts, key, r[i].key) < |ts|
    ensures Covers(r, ts, key)
    ensures forall i, j :: 0 <= i < j < |r| ==>
      FirstIndex(ts, key, r[i].key) < FirstIndex(ts, key, r[j].key)
  {
    var prefix := ts[..|ts| - 1];
    var t := ts[|ts| - 1];
    var k := key(t);
    if |r| == |g| + 1 {
      FreshKeyAbsent(prefix, key, g, k);
    }
    StepMembers(ts, key, g, r);
    StepFirstIndex(ts, key, g, r);
    StepCovers(ts, key, g, r);
  }

  /** A key no bucket holds occurs nowhere in the transactions the buckets cover. */
  lemma {:induction false} FreshKeyAbsent<K>(ts: seq<Transaction>, key: Transaction -> K, g: seq<Bucket<K>>, k: K)
    requires Covers(g, ts, key)
    requires forall i :: 0 <= i < |g| ==> g[i].key != k
    ensures forall j :: 0 <= j < |ts| ==> key(ts[j]) != k
    ensures Members(ts, key, k) == []
    ensures FirstIndex(ts, key, k) == |ts|
  {
  }

  lemma {:induction false} StepMembers<K>(ts: seq<Transaction>, key: Transaction -> K, g: seq<Bucket<K>>, r: seq<Bucket<K>>)
    requires |ts| > 0
    requires DistinctKeys(g)
    requires forall i :: 0 <= i < |g| ==> g[i].members == Members(ts[..|ts| - 1], key, g[i].key)
    requires r == Place(g, key(ts[|ts| - 1]), ts[|ts| - 1])
    requires |r| == |g| + 1 ==> Members(ts[..|ts| - 1], key, key(ts[|ts| - 1])) == []
    ensures forall i :: 0 <= i < |r| ==> r[i].members == Members(ts, key, r[i].key)
  {
    forall i | 0 <= i < |r|
      ensures r[i].members == Members(ts, key, r[i].key)
    {
      if i < |g| {
        assert r[i].key == g[i].key;
      }
    }
  }

  lemma {:induction false} FirstIndexSnoc<K>(ts: seq<Transaction>, key: Transaction -> K, k: K)
    requires |ts| > 0
    ensures FirstIndex(ts[..|ts| - 1], key, k) < |ts| - 1 ==>
      FirstIndex(ts, key, k) == FirstIndex(ts[..|ts| - 1], key, k)
    ensures FirstIndex(ts[..|ts| - 1], key, k) == |ts| - 1 && key(ts[|ts| - 1]) == k ==>
      FirstIndex(ts, key, k) == |ts| - 1
  {
  }

  lemma {:induction false} StepFirstIndex<K>(ts: seq<Transaction>, key: Transaction -> K, g: seq<Bucket<K>>, r: seq<Bucket<K>>)
    requires |ts| > 0
    requires DistinctKeys(g)
    requires forall i :: 0 <= i < |g| ==> FirstIndex(ts[..|ts| - 1], key, g[i].key) < |ts| - 1
    requires forall i, j :: 0 <= i < j < |g| ==>
      FirstIndex(ts[..|ts| - 1], key, g[i].key) < FirstIndex(ts[..|ts| - 1], key, g[j].key)
    requires |g| <= |r| <= |g| + 1
    requires forall i :: 0 <= i < |g| ==> r[i].key == g[i].key
    requires |r| == |g| + 1 ==> r[|g|].key == key(ts[|ts| - 1])
    requires |r| == |g| + 1 ==> FirstIndex(ts[..|ts| - 1], key, key(ts[|ts| - 1])) == |ts| - 1
    ensures forall i :: 0 <= i < |r| ==> FirstIndex(ts, key, r[i].key) < |ts|
    ensures forall i, j :: 0 <= i < j < |r| ==>
      FirstIndex(ts, key, r[i].key) < FirstIndex(ts, key, r[j].key)
  {
    var prefix := ts[..|ts| - 1];
    forall i | 0 <= i < |r|
      ensures FirstIndex(ts, key, r[i].key) == if i < |g| then FirstIndex(prefix, key, g[i].key) else |prefix|
    {
      if i < |g| {
        assert r[i].key == g[i].key;
        FirstIndexSnoc(ts, key, g[i].key);
      } else {
        assert i == |g| && |r| == |g| + 1;
        FirstIndexSnoc(ts, key, key(ts[|ts| - 1]));
      }
    }
    forall i, j | 0 <= i < j < |r|
      ensures FirstIndex(ts, key, r[i].key) < FirstIndex(ts, key, r[j].key)
    {
      if j < |g| {
        assert FirstIndex(prefix, key, g[i].key) < FirstIndex(prefix, key, g[j].key);
      }
    }
  }

  lemma {:induction false} StepCovers<K>(ts: seq<Transaction>, key: Transaction -> K, g: seq<Bucket<K>>, r: seq<Bucket<K>>)
    requires |ts| > 0
    requires DistinctKeys(g)
    requires Covers(g, ts[..|ts| - 1], key)
    requires r == Place(g, key(ts[|ts| - 1]), ts[|ts| - 1])
    ensures Covers(r, ts, key)
  {
    var prefix := ts[..|ts| - 1];
    var k := key(ts[|ts| - 1]);
    forall j | 0 <= j < |ts|
      ensures exists i :: 0 <= i < |r| && r[i].key == key(ts[j])
    {
      if j < |prefix| {
        assert key(ts[j]) == key(prefix[j]);
        var i :| 0 <= i < |g| && g[i].key == key(prefix[j]);
        assert r[i].key == key(ts[j]);
      } else if |r| == |g| {
        var i := IndexOfKey(g, k);
        assert r[i].key == k;
      } else {
        assert r[|g|].key == k;
      }
    }
  }

  /** The grand total of `f` over all buckets. */
  function BucketTotal<K>(bs: seq<Bucket<K>>, f: Transaction -> real): real {
    Sum(bs, (b: Bucket<K>) => Sum(b.members, f))
  }

  /** Reordering buckets does not change their grand total. */
  lemma {:induction false} BucketTotalPermutation<K>(a: seq<Bucket<K>>, b: seq<Bucket<K>>, f: Transaction -> real)
    requires multiset(a) == multiset(b)
    ensures BucketTotal(a, f) == BucketTotal(b, f)
  {
    SumPermutation(a, b, (x: Bucket<K>) => Sum(x.members, f));
  }

  lemma {:induction false} BucketTotalUpdate<K>(bs: seq<Bucket<K>>, i: nat, b: Bucket<K>, f: Transaction -> real)
    requires i < |bs|
    ensures BucketTotal(bs[i := b], f) == BucketTotal(bs, f) - Sum(bs[i].members, f) + Sum(b.members, f)
    decreases |bs|
  {
    var n := |bs| - 1;
    if i < n {
      assert bs[i := b][..n] == bs[..n][i := b];
      BucketTotalUpdate(bs[..n], i, b, f);
    } else {
      assert bs[i := b][..n] == bs[..n];
    }
  }

  lemma {:induction false} PlaceAddsToTotal<K>(g: seq<Bucket<K>>, k: K, t: Transaction, f: Transaction -> real)
    requires DistinctKeys(g)
    ensures BucketTotal(Place(g, k, t), f) == BucketTotal(g, f) + f(t)
  {
    var i := IndexOfKey(g, k);
    SumSingleton(t, f);
    if i < |g| {
      BucketTotalUpdate(g, i, Bucket(k, g[i].members + [t]), f);
      SumAppend(g[i].members, [t], f);
    } else {
      var r := g + [Bucket(k, [t])];
      assert r[..|r| - 1] == g;
    }
  }

  /** `$group` partitions: summing an accumulator over all groups gives its sum over all
      transactions, so nothing is lost or counted twice. */
  lemma {:induction false} GroupByPreservesSum<K>(ts: seq<Transaction>, key: Transaction -> K, f: Transaction -> real)
    ensures BucketTotal(GroupBy(ts, key), f) == Sum(ts, f)
    decreases |ts|
  {
    if |ts| > 0 {
      var prefix := ts[..|ts| - 1];
      var t := ts[|ts| - 1];
      var g := GroupBy(prefix, key);
      assert GroupBy(ts, key) == Place(g, key(t), t);
      GroupByPreservesSum(prefix, key, f);
      PlaceAddsToTotal(g, key(t), t, f);
    }
  }

  /** A `$group` output document with one `$sum` accumulator. */
  datatype Grouped<K> = Grouped(key: K, total: real)

  function TotalOf<K>(g: Grouped<K>): real {
    g.total
  }

  /** `{ $group: { _id: key, total: { $sum: f } } }` applied to the buckets. */
  function SumEach<K>(bs: seq<Bucket<K>>, f: Transaction -> real): (r: seq<Grouped<K>>)
    ensures |r| == |bs|
    ensures forall i :: 0 <= i < |r| ==> r[i].key == bs[i].key && r[i].total == Sum(bs[i].members, f)
  {
    if |bs| == 0 then [] else SumEach(bs[..|bs| - 1], f) + [Grouped(bs[|bs| - 1].key, Sum(bs[|bs| - 1].members, f))]
  }

  lemma {:induction false} SumEachTotal<K>(bs: seq<Bucket<K>>, f: Transaction -> real)
    ensures Sum(SumEach(bs, f), TotalOf) == BucketTotal(bs, f)
  {
    if |bs| > 0 {
      SumEachTotal(bs[..|bs| - 1], f);
      assert SumEach(bs, f)[..|bs| - 1] == SumEach(bs[..|bs| - 1], f);
    }
  }

  /** An unordered view of group output: the value of each key. */
  function ToMap<K>(gs: seq<Grouped<K>>): (m: map<K, real>)
    ensures m.Keys == set i | 0 <= i < |gs| :: gs[i].key
    ensures forall i :: 0 <= i < |gs| && (forall j :: i < j < |gs| ==> gs[j].key != gs[i].key) ==>
      m[gs[i].key] == gs[i].total
  {
    if |gs| == 0 then map[]
    else
      var m := ToMap(gs[..|gs| - 1]);
      assert forall i :: 0 <= i < |gs| - 1 ==> gs[..|gs| - 1][i] == gs[i];
      m[gs[|gs| - 1].key := gs[|gs| - 1].total]
  }

  // ---------------------------------------------------------------- field paths

  /** `"$amount"`. */
  function Amount(t: Transaction): real {
    t.amount
  }

  /** `{ $abs: "$amount" }` / `Math.abs(t.amount)`. */
  function Magnitude(t: Transaction): real {
    Abs(t.amount)
  }

  /** `"$category"`. */
  function CategoryOf(t: Transaction): Category {
    t.category
  }

  /** `{ amount: { $lt: 0 } }` / `t.amount < 0`. */
  predicate IsExpense(t: Transaction) {
    t.amount < 0.0
  }

  /** `t.amount > 0`. */
  predicate IsIncome(t: Transaction) {
    t.amount > 0.0
  }

  /** `{ $cond: [{ $gt: ["$amount", 0] }, "$amount", 0] }`. */
  function PositivePart(t: Transaction): real {
    if t.amount > 0.0 then t.amount else 0.0
  }

  /** `{ $cond: [{ $lt: ["$amount", 0] }, "$amount", 0] }`. */
  function NegativePart(t: Transaction): real {
    if t.amount < 0.0 then t.amount else 0.0
  }

  /** Each amount is its positive part plus its negative part. */
  lemma {:induction false} SumSplitsBySign(ts: seq<Transaction>)
    ensures Sum(ts, Amount) == Sum(ts, PositivePart) + Sum(ts, NegativePart)
  {
    if |ts| > 0 {
      SumSplitsBySign(ts[..|ts| - 1]);
    }
  }

  // ---------------------------------------------------------------- $sort and limit

  ghost predicate Connected<T(!new)>(le: (T, T) -> bool) {
    forall a, b :: le(a, b) || le(b, a)
  }

  ghost predicate Transitive<T(!new)>(le: (T, T) -> bool) {
    forall a, b, c :: le(a, b) && le(b, c) ==> le(a, c)
  }

  /** Each element is `le` its successor. */
  predicate Ordered<T>(s: seq<T>, le: (T, T) -> bool) {
    forall i :: 0 < i < |s| ==> le(s[i - 1], s[i])
  }

  predicate Distinct<T(==)>(s: seq<T>) {
    forall i, j :: 0 <= i < j < |s| ==> s[i] != s[j]
  }

  /** Inserting `x` before the first element it is `le`: one more copy of `x`, placed so that
      an ordered sequence stays ordered and a duplicate-free one stays duplicate-free. */
  function Insert<T(==,!new)>(x: T, s: seq<T>, le: (T, T) -> bool): (r: seq<T>)
    requires Connected(le)
    ensures |r| == |s| + 1
    ensures multiset(r) == multiset(s) + multiset{x}
    ensures r[0] == x || (|s| > 0 && r[0] == s[0])
    ensures Ordered(s, le) ==> Ordered(r, le)
    ensures x !in s && Distinct(s) ==> Distinct(r)
  {
    if |s| == 0 || le(x, s[0]) then
      ConsFacts(x, s, le);
      [x] + s
    else
      var r' := Insert(x, s[1..], le);
      InsertLater(x, s, r', le);
      [s[0]] + r'
  }

  /** Putting `y` in front of `r`: one more copy of `y`; ordered if `y` is `le` the old head,
      duplicate-free if `y` was not in `r`. */
  lemma {:induction false} ConsFacts<T>(y: T, r: seq<T>, le: (T, T) -> bool)
    ensures multiset([y] + r) == multiset(r) + multiset{y}
    ensures Ordered(r, le) && (|r| > 0 ==> le(y, r[0])) ==> Ordered([y] + r, le)
    ensures y !in r && Distinct(r) ==> Distinct([y] + r)
  {
    var c := [y] + r;
    if y !in r && Distinct(r) {
      forall i, j | 0 <= i < j < |c|
        ensures c[i] != c[j]
      {
        assert c[j] == r[j - 1];
        if i > 0 { assert c[i] == r[i - 1]; }
      }
    }
    if Ordered(r, le) && (|r| > 0 ==> le(y, r[0])) {
      forall i | 0 < i < |c|
        ensures le(c[i - 1], c[i])
      {
        if i > 1 { assert c[i - 1] == r[i - 2] && c[i] == r[i - 1]; }
      }
    }
  }

  /** The step of `Insert` that keeps the head `s[0]` and inserts `x` into the rest. */
  lemma {:induction false} InsertLater<T(!new)>(x: T, s: seq<T>, r': seq<T>, le: (T, T) -> bool)
    requires Connected(le)
    requires |s| > 0 && !le(x, s[0])
    requires |r'| == |s| && multiset(r') == multiset(s[1..]) + multiset{x}
    requires r'[0] == x || (|s| > 1 && r'[0] == s[1])
    requires Ordered(s[1..], le) ==> Ordered(r', le)
    requires x !in s[1..] && Distinct(s[1..]) ==> Distinct(r')
    ensures multiset([s[0]] + r') == multiset(s) + multiset{x}
    ensures Ordered(s, le) ==> Ordered([s[0]] + r', le)
    ensures x !in s && Distinct(s) ==> Distinct([s[0]] + r')
  {
    var h, t := s[0], s[1..];
    assert s == [h] + t;
    ConsFacts(h, r', le);
    ConsFacts(h, t, le);
    if Ordered(s, le) {
      assert Ordered(t, le) by {
        forall i | 0 < i < |t|
          ensures le(t[i - 1], t[i])
        {
          assert t[i - 1] == s[i] && t[i] == s[i + 1];
        }
      }
      assert le(h, r'[0]) by {
        if r'[0] != x { assert le(s[0], s[1]); }
      }
    }
    if x !in s && Distinct(s) {
      assert Distinct(t) by {
        forall i, j | 0 <= i < j < |t|
          ensures t[i] != t[j]
        {
          assert t[i] == s[i + 1] && t[j] == s[j + 1];
        }
      }
      assert h !in r' by {
        assert h !in t by {
          forall i | 0 <= i < |t|
            ensures t[i] != h
          {
            assert t[i] == s[i + 1];
          }
        }
        assert h != x;
        assert h !in multiset(r');
      }
    }
  }

  /** `$sort` by a total preorder `le`: a reordering of `s` in which each element is `le` the
      next. Elements that tie keep no particular order beyond what the store returns. */
  function Sort<T(==,!new)>(s: seq<T>, le: (T, T) -> bool): (r: seq<T>)
    requires Connected(le)
    ensures multiset(r) == multiset(s)
    ensures Ordered(r, le)
    ensures Distinct(s) ==> Distinct(r)
  {
    if |s| == 0 then []
    else
      var r' := Sort(s[1..], le);
      var r := Insert(s[0], r', le);
      SortStep(s, r', r);
      r
  }

  /** The step of `Sort` that inserts the head into the sorted rest. */
  lemma {:induction false} SortStep<T>(s: seq<T>, r': seq<T>, r: seq<T>)
    requires |s| > 0
    requires multiset(r') == multiset(s[1..])
    requires Distinct(s[1..]) ==> Distinct(r')
    requires multiset(r) == multiset(r') + multiset{s[0]}
    ensures multiset(r) == multiset(s)
    ensures Distinct(s) ==> s[0] !in r' && Distinct(r')
  {
    var h, t := s[0], s[1..];
    assert s == [h] + t;
    if Distinct(s) {
      assert Distinct(t) by {
        forall i, j | 0 <= i < j < |t|
          ensures t[i] != t[j]
        {
          assert t[i] == s[i + 1] && t[j] == s[j + 1];
        }
      }
      assert h !in t by {
        forall i | 0 <= i < |t|
          ensures t[i] != h
        {
          assert t[i] == s[i + 1];
        }
      }
      assert h !in multiset(r');
    }
  }

  /** Under a transitive order, an `Ordered` sequence relates every earlier element to every
      later one. */
  lemma {:induction false} OrderedPairwise<T(!new)>(s: seq<T>, le: (T, T) -> bool)
    requires Transitive(le)
    requires Ordered(s, le)
    ensures forall i, j :: 0 <= i < j < |s| ==> le(s[i], s[j])
  {
    forall i, j | 0 <= i < j < |s|
      ensures le(s[i], s[j])
    {
      var k := i + 1;
      while k < j
        invariant i < k <= j
        invariant le(s[i], s[k])
      {
        k := k + 1;
      }
    }
  }

  /** `.limit(n)` / `slice(0, n)`: the first `min(n, |s|)` elements. */
  function Take<T>(s: seq<T>, n: nat): (r: seq<T>)
    ensures |r| == if |s| < n then |s| else n
    ensures r == s[..|r|]
  {
    if |s| < n then s else s[..n]
  }

  // ---------------------------------------------------------------- newest first

  /** The order of `sort({ date: -1 })`: `a` may come before `b` when it is not older. */
  predicate NewerOrSame(a: Transaction, b: Transaction) {
    DateLe(b.date, a.date)
  }

  lemma {:induction false} NewerOrSameIsTotalPreorder()
    ensures Connected(NewerOrSame)
    ensures Transitive(NewerOrSame)
  {
  }

  /** `find({}).sort({ date: -1 })`: the collection, newest first. */
  function SortNewestFirst(ts: seq<Transaction>): (r: seq<Transaction>)
    ensures multiset(r) == multiset(ts)
    ensures forall i, j :: 0 <= i < j < |r| ==> DateLe(r[j].date, r[i].date)
  {
    NewerOrSameIsTotalPreorder();
    var r := Sort(ts, NewerOrSame);
    OrderedPairwise(r, NewerOrSame);
    r
  }

  /** Every element of a prefix of a newest-first list is at least as new as every element
      after it. */
  lemma {:induction false} PrefixIsNewest(s: seq<Transaction>, n: nat)
    requires n <= |s|
    requires forall i, j :: 0 <= i < j < |s| ==> DateLe(s[j].date, s[i].date)
    ensures forall x, y :: x in s[..n] && y in s[n..] ==> DateLe(y.date, x.date)
  {
    forall x, y | x in s[..n] && y in s[n..]
      ensures DateLe(y.date, x.date)
    {
      var i :| 0 <= i < n && s[..n][i] == x;
      var j :| 0 <= j < |s| - n && s[n..][j] == y;
      assert s[i] == x && s[n + j] == y;
    }
  }

  /**
   * The five most recent transactions (`.sort({ date: -1 }).limit(5)` and
   * `transactions.slice(0, 5)` of the newest-first list): at most five, newest first, all taken
   * from the collection, and none of the transactions left out is newer than one shown.
   */
  function Recent(ts: seq<Transaction>): (r: seq<Transaction>)
    ensures |r| == if |ts| < 5 then |ts| else 5
    ensures multiset(r) <= multiset(ts)
    ensures forall i, j :: 0 <= i < j < |r| ==> DateLe(r[j].date, r[i].date)
    ensures forall x, y :: x in r && y in multiset(ts) - multiset(r) ==> DateLe(y.date, x.date)
  {
    var s := SortNewestFirst(ts);
    var r := Take(s, 5);
    NewestPrefix(ts, s, r);
    r
  }

  /** A prefix `r` of a newest-first reordering `s` of `ts` is newest first, drawn from `ts`,
      and at least as new as everything of `ts` it leaves out. */
  lemma {:induction false} NewestPrefix(ts: seq<Transaction>, s: seq<Transaction>, r: seq<Transaction>)
    requires multiset(s) == multiset(ts)
    requires forall i, j :: 0 <= i < j < |s| ==> DateLe(s[j].date, s[i].date)
    requires |r| <= |s| && r == s[..|r|]
    ensures multiset(r) <= multiset(ts)
    ensures forall i, j :: 0 <= i < j < |r| ==> DateLe(r[j].date, r[i].date)
    ensures forall x, y :: x in r && y in multiset(ts) - multiset(r) ==> DateLe(y.date, x.date)
  {
    assert s == r + s[|r|..];
    assert multiset(ts) - multiset(r) == multiset(s[|r|..]);
    PrefixIsNewest(s, |r|);
  }

  // ---------------------------------------------------------------- months

  /** The `_id: { year: { $year: "$date" }, month: { $month: "$date" } }` of a monthly group. */
  datatype MonthKey = MonthKey(year: int, month: MonthNumber)

  function MonthOf(t: Transaction): MonthKey {
    MonthKey(t.date.year, t.date.month)
  }

  /** `{ "_id.year": 1, "_id.month": 1 }`: ascending by year, then by month. */
  predicate MonthKeyLe(a: MonthKey, b: MonthKey) {
    a.year < b.year || (a.year == b.year && a.month <= b.month)
  }

  predicate MonthKeyLt(a: MonthKey, b: MonthKey) {
    a.year < b.year || (a.year == b.year && a.month < b.month)
  }

  predicate BucketMonthLe(a: Bucket<MonthKey>, b: Bucket<MonthKey>) {
    MonthKeyLe(a.key, b.key)
  }

  predicate BucketMonthLt(a: Bucket<MonthKey>, b: Bucket<MonthKey>) {
    MonthKeyLt(a.key, b.key)
  }

  /** Buckets with distinct keys are distinct, and so are the buckets of any reordering of them. */
  lemma {:induction false} ReorderedKeysDistinct<K>(g: seq<Bucket<K>>, r: seq<Bucket<K>>)
    requires DistinctKeys(g)
    requires multiset(r) == multiset(g)
    requires Distinct(r)
    ensures DistinctKeys(r)
  {
    forall i, j | 0 <= i < j < |r|
      ensures r[i].key != r[j].key
    {
      assert r[i] in multiset(g) && r[j] in multiset(g);
      var p :| 0 <= p < |g| && g[p] == r[i];
      var q :| 0 <= q < |g| && g[q] == r[j];
      assert p != q;
    }
  }

  /** Ascending buckets with distinct keys are strictly ascending. */
  lemma {:induction false} StrictlyOrdered(r: seq<Bucket<MonthKey>>)
    requires Ordered(r, BucketMonthLe)
    requires DistinctKeys(r)
    ensures Ordered(r, BucketMonthLt)
  {
    forall i | 0 < i < |r|
      ensures BucketMonthLt(r[i - 1], r[i])
    {
      assert BucketMonthLe(r[i - 1], r[i]);
      assert r[i - 1].key != r[i].key;
    }
  }

  /**
   * The monthly `$group` followed by `$sort: { "_id.year": 1, "_id.month": 1 }`: one bucket
   * per month in which some transaction falls, strictly ascending, each holding exactly the
   * transactions of its month. `$sort` reorders whole group documents, so sorting the buckets
   * before computing their accumulators yields the same documents in the same order.
   */
  function MonthBuckets(ts: seq<Transaction>): (r: seq<Bucket<MonthKey>>)
    ensures forall i, j :: 0 <= i < j < |r| ==> MonthKeyLt(r[i].key, r[j].key)
    ensures forall i :: 0 <= i < |r| ==> r[i].members == Members(ts, MonthOf, r[i].key)
    ensures forall i :: 0 <= i < |r| ==> FirstIndex(ts, MonthOf, r[i].key) < |ts|
    ensures Covers(r, ts, MonthOf)
    ensures multiset(r) == multiset(GroupBy(ts, MonthOf))
  {
    var g := GroupBy(ts, MonthOf);
    assert Connected(BucketMonthLe);
    var r := Sort(g, BucketMonthLe);
    MonthOrder(g, r);
    ReorderedBuckets(ts, MonthOf, g, r);
    r
  }

  lemma {:induction false} MonthOrder(g: seq<Bucket<MonthKey>>, r: seq<Bucket<MonthKey>>)
    requires DistinctKeys(g)
    requires multiset(r) == multiset(g)
    requires Distinct(g) ==> Distinct(r)
    requires Ordered(r, BucketMonthLe)
    ensures forall i, j :: 0 <= i < j < |r| ==> MonthKeyLt(r[i].key, r[j].key)
  {
    assert Distinct(g);
    ReorderedKeysDistinct(g, r);
    StrictlyOrdered(r);
    assert Transitive(BucketMonthLt);
    OrderedPairwise(r, BucketMonthLt);
  }

  /** A reordering of GroupBy's buckets keeps its promises about each bucket. */
  lemma {:induction false} ReorderedBuckets<K>(ts: seq<Transaction>, key: Transaction -> K, g: seq<Bucket<K>>, r: seq<Bucket<K>>)
    requires g == GroupBy(ts, key)
    requires multiset(r) == multiset(g)
    ensures forall i :: 0 <= i < |r| ==> r[i].members == Members(ts, key, r[i].key)
    ensures forall i :: 0 <= i < |r| ==> FirstIndex(ts, key, r[i].key) < |ts|
    ensures Covers(r, ts, key)
  {
    forall i | 0 <= i < |r|
      ensures r[i].members == Members(ts, key, r[i].key) && FirstIndex(ts, key, r[i].key) < |ts|
    {
      assert r[i] in multiset(g);
    }
    forall j | 0 <= j < |ts|
      ensures exists i :: 0 <= i < |r| && r[i].key == key(ts[j])
    {
      var p :| 0 <= p < |g| && g[p].key == key(ts[j]);
      assert g[p] in multiset(r);
    }
  }

  /** Grouping by month loses no amount: the months' totals add up to the collection's. */
  lemma {:induction false} MonthBucketsPreserveSum(ts: seq<Transaction>, f: Transaction -> real)
    ensures BucketTotal(MonthBuckets(ts), f) == Sum(ts, f)
  {
    BucketTotalPermutation(MonthBuckets(ts), GroupBy(ts, MonthOf), f);
    GroupByPreservesSum(ts, MonthOf, f);
  }
}

=== FILE: dashboard.dfy ===
/**
 * The dashboard page (app/page.tsx): the monthly and category aggregations of `getStats`, the
 * newest-first list of `getTransactions`, and the page that combines them with the summary
 * cards and the five most recent transactions.
 */
module Dashboard {
  import opened Wrappers
  import opened Types
  import opened Format
  import opened Aggregation
  import opened SummaryCards

  // ---------------------------------------------------------------- monthly pipeline

  /** One document of the monthly `$group`: the (year, month) `_id` with the conditional sums
      `income` (`$cond` on `$gt: ["$amount", 0]`) and `expense` (`$cond` on `$lt`). */
  datatype MonthGroup = MonthGroup(key: MonthKey, income: real, expense: real)

  function IncomeOf(g: MonthGroup): real {
    g.income
  }

  function ExpenseOf(g: MonthGroup): real {
    g.expense
  }

  /** The two `$sum`/`$cond` accumulators evaluated on one bucket. */
  function GroupOf(b: Bucket<MonthKey>): MonthGroup {
    MonthGroup(b.key, Sum(b.members, PositivePart), Sum(b.members, NegativePart))
  }

  function BucketIncome(b: Bucket<MonthKey>): real {
    Sum(b.members, PositivePart)
  }

  function BucketExpense(b: Bucket<MonthKey>): real {
    Sum(b.members, NegativePart)
  }

  /**
   * The monthly pipeline of `getStats` (`$group` by year and month, `$sort` ascending): one
   * group per month in which a transaction falls, each month once and strictly ascending,
   * with `income` the total income of that month (so >= 0) and `expense` the negated total
   * expenses of that month (so <= 0).
   */
  function MonthlyGroups(ts: seq<Transaction>): (r: seq<MonthGroup>)
    ensures forall i, j :: 0 <= i < j < |r| ==> MonthKeyLt(r[i].key, r[j].key)
    ensures (set i | 0 <= i < |r| :: r[i].key) == (set j | 0 <= j < |ts| :: MonthOf(ts[j]))
    ensures forall i :: 0 <= i < |r| ==>
      r[i].income == TotalIncome(Members(ts, MonthOf, r[i].key)) &&
      r[i].expense == -TotalExpenses(Members(ts, MonthOf, r[i].key))
    ensures forall i :: 0 <= i < |r| ==> r[i].expense <= 0.0 <= r[i].income
  {
    var bs := MonthBuckets(ts);
    var r := MapSeq(bs, GroupOf);
    MonthlyGroupsFacts(ts, bs, r);
    r
  }

  lemma {:induction false} MonthlyGroupsFacts(ts: seq<Transaction>, bs: seq<Bucket<MonthKey>>, r: seq<MonthGroup>)
    requires bs == MonthBuckets(ts)
    requires r == MapSeq(bs, GroupOf)
    ensures forall i, j :: 0 <= i < j < |r| ==> MonthKeyLt(r[i].key, r[j].key)
    ensures (set i | 0 <= i < |r| :: r[i].key) == (set j | 0 <= j < |ts| :: MonthOf(ts[j]))
    ensures forall i :: 0 <= i < |r| ==>
      r[i].income == TotalIncome(Members(ts, MonthOf, r[i].key)) &&
      r[i].expense == -TotalExpenses(Members(ts, MonthOf, r[i].key))
    ensures forall i :: 0 <= i < |r| ==> r[i].expense <= 0.0 <= r[i].income
  {
    MonthlyGroupsKeys(ts, bs, r);
    forall i | 0 <= i < |r|
      ensures r[i].income == TotalIncome(Members(ts, MonthOf, r[i].key))
      ensures r[i].expense == -TotalExpenses(Members(ts, MonthOf, r[i].key))
    {
      assert r[i] == GroupOf(bs[i]);
      assert bs[i].members == Members(ts, MonthOf, r[i].key);
    }
  }

  lemma {:induction false} MonthlyGroupsKeys(ts: seq<Transaction>, bs: seq<Bucket<MonthKey>>, r: seq<MonthGroup>)
    requires bs == MonthBuckets(ts)
    requires r == MapSeq(bs, GroupOf)
    ensures forall i, j :: 0 <= i < j < |r| ==> MonthKeyLt(r[i].key, r[j].key)
    ensures (set i | 0 <= i < |r| :: r[i].key) == (set j | 0 <= j < |ts| :: MonthOf(ts[j]))
  {
    GroupKeys(bs, ts, MonthOf);
    SameKeys(bs, r);
    forall i, j | 0 <= i < j < |r|
      ensures MonthKeyLt(r[i].key, r[j].key)
    {
      assert r[i] == GroupOf(bs[i]) && r[j] == GroupOf(bs[j]);
    }
  }

  lemma {:induction false} SameKeys(bs: seq<Bucket<MonthKey>>, r: seq<MonthGroup>)
    requires r == MapSeq(bs, GroupOf)
    ensures (set i | 0 <= i < |r| :: r[i].key) == (set i | 0 <= i < |bs| :: bs[i].key)
  {
    var fromBuckets := set i | 0 <= i < |bs| :: bs[i].key;
    var fromGroups := set i | 0 <= i < |r| :: r[i].key;
    forall k | k in fromBuckets
      ensures k in fromGroups
    {
      var i :| 0 <= i < |bs| && bs[i].key == k;
      assert r[i] == GroupOf(bs[i]);
    }
  }

  /** Formatting turns every non-positive raw expense into its magnitude. */
  lemma {:induction false} ExpenseColumn(gs: seq<MonthGroup>)
    requires forall i :: 0 <= i < |gs| ==> gs[i].expense <= 0.0
    ensures Sum(MapSeq(gs, PointOf), PointExpense) == -Sum(gs, ExpenseOf)
  {
    if |gs| > 0 {
      ExpenseColumn(gs[..|gs| - 1]);
      assert MapSeq(gs, PointOf)[..|gs| - 1] == MapSeq(gs[..|gs| - 1], PointOf);
    }
  }

  /** A point of the monthly chart: the `YYYY-MM` label and both amounts as magnitudes. */
  datatype MonthlyPoint = MonthlyPoint(name: string, income: real, expense: real)

  function PointIncome(p: MonthlyPoint): real {
    p.income
  }

  function PointExpense(p: MonthlyPoint): real {
    p.expense
  }

  /** One `monthlyData.map` step: the label, the income, and `Math.abs` of the expense. */
  function PointOf(g: MonthGroup): MonthlyPoint {
    MonthlyPoint(MonthLabel(g.key.year, g.key.month), g.income, Abs(g.expense))
  }

  /**
   * `formattedMonthlyData` of the given month groups: one point per group, labelled `YYYY-MM`,
   * with the group's income and the magnitude of its expense. The labels are pairwise distinct
   * and read back as the groups' months.
   */
  function FormatMonths(gs: seq<MonthGroup>): (r: seq<MonthlyPoint>)
    requires forall i, j :: 0 <= i < j < |gs| ==> MonthKeyLt(gs[i].key, gs[j].key)
    requires forall i :: 0 <= i < |gs| ==> gs[i].expense <= 0.0 <= gs[i].income
    ensures |r| == |gs|
    ensures forall i :: 0 <= i < |r| ==> r[i].income == gs[i].income >= 0.0
    ensures forall i :: 0 <= i < |r| ==> r[i].expense == -gs[i].expense >= 0.0
    ensures forall i :: 0 <= i < |r| ==> r[i].name == MonthLabel(gs[i].key.year, gs[i].key.month)
    ensures forall i :: 0 <= i < |r| ==> ParseMonthLabel(r[i].name) == Some((gs[i].key.year, gs[i].key.month as int))
    ensures forall i, j :: 0 <= i < j < |r| ==> r[i].name != r[j].name
  {
    var r := MapSeq(gs, PointOf);
    PointValues(gs, r);
    MonthlyDataFacts(gs, r);
    r
  }

  lemma {:induction false} PointValues(gs: seq<MonthGroup>, r: seq<MonthlyPoint>)
    requires forall i :: 0 <= i < |gs| ==> gs[i].expense <= 0.0 <= gs[i].income
    requires r == MapSeq(gs, PointOf)
    ensures |r| == |gs|
    ensures forall i :: 0 <= i < |r| ==> r[i].income == gs[i].income >= 0.0
    ensures forall i :: 0 <= i < |r| ==> r[i].expense == -gs[i].expense >= 0.0
    ensures forall i :: 0 <= i < |r| ==> r[i].name == MonthLabel(gs[i].key.year, gs[i].key.month)
  {
  }

  lemma {:induction false} MonthlyDataFacts(gs: seq<MonthGroup>, r: seq<MonthlyPoint>)
    requires forall i, j :: 0 <= i < j < |gs| ==> MonthKeyLt(gs[i].key, gs[j].key)
    requires r == MapSeq(gs, PointOf)
    ensures forall i :: 0 <= i < |r| ==> ParseMonthLabel(r[i].name) == Some((gs[i].key.year, gs[i].key.month as int))
    ensures forall i, j :: 0 <= i < j < |r| ==> r[i].name != r[j].name
  {
    forall i | 0 <= i < |r|
      ensures ParseMonthLabel(r[i].name) == Some((gs[i].key.year, gs[i].key.month as int))
    {
      MonthLabelRoundTrip(gs[i].key.year, gs[i].key.month);
    }
    forall i, j | 0 <= i < j < |r|
      ensures r[i].name != r[j].name
    {
      MonthLabelInjective(gs[i].key.year, gs[i].key.month, gs[j].key.year, gs[j].key.month);
    }
  }

  /** The monthly chart data of the dashboard: the month groups of the collection, formatted. */
  function MonthlyData(ts: seq<Transaction>): seq<MonthlyPoint> {
    FormatMonths(MonthlyGroups(ts))
  }

  lemma {:induction false} MonthlyDataUnfolds(ts: seq<Transaction>)
    ensures MonthlyData(ts) == MapSeq(MapSeq(MonthBuckets(ts), GroupOf), PointOf)
  {
  }

  /** The income accumulators of all month groups add up to the collection's income. */
  lemma {:induction false} GroupIncomeTotal(ts: seq<Transaction>, bs: seq<Bucket<MonthKey>>, gs: seq<MonthGroup>)
    requires bs == MonthBuckets(ts)
    requires gs == MapSeq(bs, GroupOf)
    ensures Sum(gs, IncomeOf) == Sum(ts, PositivePart)
  {
    SumMapSeq(bs, GroupOf, IncomeOf, BucketIncome);
    SumCongruent(bs, (b: Bucket<MonthKey>) => Sum(b.members, PositivePart), BucketIncome);
    MonthBucketsPreserveSum(ts, PositivePart);
  }

  /** The expense accumulators of all month groups add up to the collection's negated expenses. */
  lemma {:induction false} GroupExpenseTotal(ts: seq<Transaction>, bs: seq<Bucket<MonthKey>>, gs: seq<MonthGroup>)
    requires bs == MonthBuckets(ts)
    requires gs == MapSeq(bs, GroupOf)
    ensures Sum(gs, ExpenseOf) == Sum(ts, NegativePart)
  {
    SumMapSeq(bs, GroupOf, ExpenseOf, BucketExpense);
    SumCongruent(bs, (b: Bucket<MonthKey>) => Sum(b.members, NegativePart), BucketExpense);
    MonthBucketsPreserveSum(ts, NegativePart);
  }

  /** Formatting keeps the income column and turns the expense column into magnitudes. */
  lemma {:induction false} PointColumns(gs: seq<MonthGroup>, ps: seq<MonthlyPoint>)
    requires ps == MapSeq(gs, PointOf)
    requires forall i :: 0 <= i < |gs| ==> gs[i].expense <= 0.0
    ensures Sum(ps, PointIncome) == Sum(gs, IncomeOf)
    ensures Sum(ps, PointExpense) == -Sum(gs, ExpenseOf)
  {
    ExpenseColumn(gs);
    SumMapSeq(gs, PointOf, PointIncome, IncomeOf);
  }

  /** The chart columns, computed from the buckets through the groups, keep both totals. */
  lemma {:induction false} ChartColumns(ts: seq<Transaction>, bs: seq<Bucket<MonthKey>>, gs: seq<MonthGroup>, ps: seq<MonthlyPoint>)
    requires bs == MonthBuckets(ts)
    requires gs == MapSeq(bs, GroupOf)
    requires ps == MapSeq(gs, PointOf)
    requires forall i :: 0 <= i < |gs| ==> gs[i].expense <= 0.0
    ensures Sum(ps, PointIncome) == Sum(ts, PositivePart)
    ensures Sum(ps, PointExpense) == -Sum(ts, NegativePart)
  {
    GroupIncomeTotal(ts, bs, gs);
    GroupExpenseTotal(ts, bs, gs);
    PointColumns(gs, ps);
  }

  /** Across all months, the income column adds up to the total income (the sum of the positive
      parts, as `TotalIncome` states) and the expense column to the total expenses (minus the sum
      of the negative parts, as `TotalExpenses` states) of the whole collection. */
  lemma {:induction false} MonthlyTotals(ts: seq<Transaction>)
    ensures Sum(MonthlyData(ts), PointIncome) == Sum(ts, PositivePart)
    ensures Sum(MonthlyData(ts), PointExpense) == -Sum(ts, NegativePart)
  {
    var bs := MonthBuckets(ts);
    var gs := MapSeq(bs, GroupOf);
    var ps := MapSeq(gs, PointOf);
    assert Sum(ps, PointIncome) == Sum(ts, PositivePart) && Sum(ps, PointExpense) == -Sum(ts, NegativePart) by {
      MonthlyGroupsFacts(ts, bs, gs);
      ChartColumns(ts, bs, gs, ps);
    }
    MonthlyDataUnfolds(ts);
  }

  // ---------------------------------------------------------------- category pipeline

  /**
   * The category pipeline of `getStats` (`$match: { amount: { $lt: 0 } }`, `$group` by category
   * with `$sum: { $abs: "$amount" }`), keyed by category since the order of `$group` output is
   * unspecified: exactly the categories that have an expense, each valued at its total spending.
   */
  function CategoryData(ts: seq<Transaction>): (m: map<Category, real>)
    ensures m.Keys == ExpenseCategories(ts)
    ensures forall c :: c in m ==> m[c] == CategorySpend(ts, c) && m[c] > 0.0
  {
    var gs := SumEach(GroupBy(Match(ts, IsExpense), CategoryOf), Magnitude);
    assert gs == CategoryTotals(ts);
    var m := ToMap(gs);
    CategoryMap(ts, gs, m);
    m
  }

  /** Keying the category totals by category keeps every total, since the keys are distinct. */
  lemma {:induction false} CategoryMap(ts: seq<Transaction>, gs: seq<Grouped<Category>>, m: map<Category, real>)
    requires gs == CategoryTotals(ts)
    requires m == ToMap(gs)
    ensures m.Keys == ExpenseCategories(ts)
    ensures forall c :: c in m ==> m[c] == CategorySpend(ts, c) && m[c] > 0.0
  {
    forall c | c in m
      ensures m[c] == CategorySpend(ts, c)
    {
      var i :| 0 <= i < |gs| && gs[i].key == c;
    }
  }

  // ---------------------------------------------------------------- the page

  /** What the page renders: the summary cards, both charts and the recent list. */
  datatype Home = Home(
    transactions: seq<Transaction>,
    summary: Summary,
    monthly: seq<MonthlyPoint>,
    categories: map<Category, real>,
    recent: seq<Transaction>)

  /**
   * `Home()` over the collection `store`; `listOk` and `statsOk` say whether `getTransactions`
   * and `getStats` reached the database (a failure is caught and replaced by empty data). The
   * cards are computed from the newest-first list, the recent list is its first five entries.
   */
  function HomePage(store: seq<Transaction>, listOk: bool, statsOk: bool): (h: Home)
    ensures listOk ==> multiset(h.transactions) == multiset(store)
    ensures !listOk ==> h.transactions == []
    ensures h.summary == Summarize(h.transactions)
    ensures |h.recent| == if listOk && |store| < 5 then |store| else if listOk then 5 else 0
    ensures h.recent == h.transactions[..|h.recent|]
    ensures forall i, j :: 0 <= i < j < |h.transactions| ==> DateLe(h.transactions[j].date, h.transactions[i].date)
    ensures statsOk ==> h.monthly == MonthlyData(store) && h.categories == CategoryData(store)
    ensures !statsOk ==> h.monthly == [] && h.categories == map[]
  {
    var list := if listOk then SortNewestFirst(store) else [];
    ListOrder(store, listOk, list);
    var charts := Charts(store, statsOk);
    Home(list, Summarize(list), charts.0, charts.1, Take(list, 5))
  }

  /** The two charts, or empty ones when `getStats` fails; kept apart so that `HomePage` stays
      within the verifier's resource limit. */
  function Charts(store: seq<Transaction>, statsOk: bool): (c: (seq<MonthlyPoint>, map<Category, real>))
    ensures statsOk ==> c.0 == MonthlyData(store) && c.1 == CategoryData(store)
    ensures !statsOk ==> c.0 == [] && c.1 == map[]
  {
    if statsOk then (MonthlyData(store), CategoryData(store)) else ([], map[])
  }

  /** The listed transactions: the collection newest first, or nothing when it cannot be read. */
  lemma {:induction false} ListOrder(store: seq<Transaction>, listOk: bool, list: seq<Transaction>)
    requires list == if listOk then SortNewestFirst(store) else []
    ensures listOk ==> multiset(list) == multiset(store)
    ensures !listOk ==> list == []
    ensures forall i, j :: 0 <= i < j < |list| ==> DateLe(list[j].date, list[i].date)
    ensures |list| == if listOk then |store| else 0
  {
    if listOk {
      assert |list| == |multiset(list)| == |multiset(store)| == |store|;
    }
  }

  /** The cards of the dashboard: those of the whole collection when it could be listed, all
      zero with top category "None" otherwise. */
  lemma {:induction false} HomeCards(store: seq<Transaction>, listOk: bool, statsOk: bool)
    ensures !listOk ==> HomePage(store, listOk, statsOk).summary == Summary(0.0, 0.0, 0.0, None, 0.0)
    ensures HomePage(store, listOk, statsOk).summary.totalIncome == (if listOk then TotalIncome(store) else 0.0)
    ensures HomePage(store, listOk, statsOk).summary.totalExpenses == (if listOk then TotalExpenses(store) else 0.0)
    ensures HomePage(store, listOk, statsOk).summary.balance == (if listOk then Sum(store, Amount) else 0.0)
  {
    var h := HomePage(store, listOk, statsOk);
    ListSummary(store, listOk, h.transactions);
  }

  /** The cards of the listed transactions: those of the collection when it could be read,
      all zero otherwise. */
  lemma {:induction false} ListSummary(store: seq<Transaction>, listOk: bool, list: seq<Transaction>)
    requires list == if listOk then SortNewestFirst(store) else []
    ensures !listOk ==> Summarize(list) == Summary(0.0, 0.0, 0.0, None, 0.0)
    ensures Summarize(list).totalIncome == (if listOk then TotalIncome(store) else 0.0)
    ensures Summarize(list).totalExpenses == (if listOk then TotalExpenses(store) else 0.0)
    ensures Summarize(list).balance == (if listOk then Sum(store, Amount) else 0.0)
  {
    if listOk {
      SummaryIgnoresOrder(store, list);
    } else {
      EmptySummary();
    }
  }

  /** The totals on the cards do not depend on the order of the list. */
  lemma {:induction false} SummaryIgnoresOrder(a: seq<Transaction>, b: seq<Transaction>)
    requires multiset(a) == multiset(b)
    ensures Summarize(a).totalIncome == Summarize(b).totalIncome
    ensures Summarize(a).totalExpenses == Summarize(b).totalExpenses
    ensures Summarize(a).balance == Summarize(b).balance
  {
    assert TotalIncome(a) == TotalIncome(b) by {
      SumPermutation(a, b, PositivePart);
    }
    assert TotalExpenses(a) == TotalExpenses(b) by {
      SumPermutation(a, b, NegativePart);
    }
  }

  /** The recent list is exactly the five most recent transactions of the collection. */
  lemma {:induction false} HomeRecentIsRecent(store: seq<Transaction>)
    ensures HomePage(store, true, true).recent == Recent(store)
  {
  }
}

=== FILE: format.dfy ===
/**
 * The JavaScript string operations the core relies on: `String.prototype.trim`,
 * number-to-string conversion of integers, `padStart`, and the `YYYY-MM` chart label.
 */
module Format {
  import opened Wrappers

  /** The characters `trim` removes: ECMAScript WhiteSpace and LineTerminator. */
  predicate IsJsWhitespace(c: char) {
    || c == '\t' || c == '\n' || c == '\U{B}' || c == '\U{C}' || c == '\r' || c == ' '
    || c == '\U{A0}' || c == '\U{1680}' || ('\U{2000}' <= c <= '\U{200A}')
    || c == '\U{2028}' || c == '\U{2029}' || c == '\U{202F}' || c == '\U{205F}'
    || c == '\U{3000}' || c == '\U{FEFF}'
  }

  /** A string made only of whitespace (the empty string included). */
  predicate IsBlank(s: string) {
    forall i :: 0 <= i < |s| ==> IsJsWhitespace(s[i])
  }

  function TrimStart(s: string): (r: string)
    ensures |r| <= |s| && r == s[|s| - |r|..]
    ensures IsBlank(s[..|s| - |r|])
    ensures |r| > 0 ==> !IsJsWhitespace(r[0])
  {
    if |s| > 0 && IsJsWhitespace(s[0]) then TrimStart(s[1..]) else s
  }

  function TrimEnd(s: string): (r: string)
    ensures |r| <= |s| && r == s[..|r|]
    ensures IsBlank(s[|r|..])
    ensures |r| > 0 ==> !IsJsWhitespace(r[|r| - 1])
  {
    if |s| > 0 && IsJsWhitespace(s[|s| - 1]) then TrimEnd(s[..|s| - 1]) else s
  }

  /** Whitespace removed from the front, then from the back, leaves a middle slice. */
  lemma {:induction false} TrimSlices(s: string, a: string, r: string)
    requires |a| <= |s| && a == s[|s| - |a|..] && IsBlank(s[..|s| - |a|])
    requires |r| <= |a| && r == a[..|r|] && IsBlank(a[|r|..])
    ensures var i := |s| - |a|; var j := i + |r|;
      && 0 <= i <= j <= |s| && r == s[i..j] && IsBlank(s[..i]) && IsBlank(s[j..])
  {
    var i := |s| - |a|;
    assert s[i + |r|..] == a[|r|..];
  }

  /** `s.trim()`: the longest slice of `s` that neither starts nor ends with whitespace,
      obtained by removing only whitespace. */
  function Trim(s: string): (r: string)
    ensures exists i, j :: 0 <= i <= j <= |s| && r == s[i..j] && IsBlank(s[..i]) && IsBlank(s[j..])
    ensures |r| > 0 ==> !IsJsWhitespace(r[0]) && !IsJsWhitespace(r[|r| - 1])
  {
    var a := TrimStart(s);
    var r := TrimEnd(a);
    TrimSlices(s, a, r);
    r
  }

  /** Two blank pieces that meet make a blank string. */
  lemma {:induction false} BlankJoin(s: string, i: int)
    requires 0 <= i <= |s| && IsBlank(s[..i]) && IsBlank(s[i..])
    ensures IsBlank(s)
  {
    forall k | 0 <= k < |s|
      ensures IsJsWhitespace(s[k])
    {
      if k < i { assert s[k] == s[..i][k]; } else { assert s[k] == s[i..][k - i]; }
    }
  }

  /** `s.trim()` is empty exactly when `s` consists of whitespace only. */
  lemma {:induction false} TrimEmptyIffBlank(s: string)
    ensures Trim(s) == "" <==> IsBlank(s)
  {
    var r := Trim(s);
    var i, j :| 0 <= i <= j <= |s| && r == s[i..j] && IsBlank(s[..i]) && IsBlank(s[j..]);
    if r == "" {
      assert i == j;
      BlankJoin(s, i);
    } else {
      assert s[i] == r[0];
    }
  }

  function DigitChar(d: nat): char
    requires d < 10
  {
    ('0' as int + d) as char
  }

  predicate IsDigit(c: char) {
    '0' <= c <= '9'
  }

  function DigitValue(c: char): nat
    requires IsDigit(c)
  {
    (c as int - '0' as int) as nat
  }

  /** Decimal representation of a natural number, without leading zeros. */
  function NatToString(n: nat): (r: string)
    ensures |r| > 0
    ensures forall i :: 0 <= i < |r| ==> IsDigit(r[i])
    ensures n < 10 <==> |r| == 1
    ensures r[0] == '0' <==> n == 0
    ensures |r| > 1 ==> r[0] != '0'
  {
    if n < 10 then [DigitChar(n)] else NatToString(n / 10) + [DigitChar(n % 10)]
  }

  /** Value of a string of decimal digits. */
  function ParseNat(s: string): nat
    requires forall i :: 0 <= i < |s| ==> IsDigit(s[i])
  {
    if |s| == 0 then 0 else ParseNat(s[..|s| - 1]) * 10 + DigitValue(s[|s| - 1])
  }

  lemma {:induction false} NatToStringRoundTrip(n: nat)
    ensures ParseNat(NatToString(n)) == n
  {
    var r := NatToString(n);
    if n >= 10 {
      NatToStringRoundTrip(n / 10);
      assert r[..|r| - 1] == NatToString(n / 10);
    }
  }

  /** `String(n)` for an integer-valued JavaScript number. */
  function IntToString(n: int): (r: string)
    ensures |r| > 0
    ensures n >= 0 ==> forall i :: 0 <= i < |r| ==> IsDigit(r[i])
    ensures n >= 0 ==> r == NatToString(n)
    ensures n < 0 ==> r == "-" + NatToString(-n)
    ensures r[0] == '-' <==> n < 0
  {
    if n < 0 then "-" + NatToString(-n) else NatToString(n)
  }

  /** `s.padStart(width, fill)` with a one-character fill. */
  function PadStart(s: string, width: nat, fill: char): (r: string)
    ensures |r| == if |s| >= width then |s| else width
    ensures r[|r| - |s|..] == s
    ensures forall i :: 0 <= i < |r| - |s| ==> r[i] == fill
    decreases width - |s|
  {
    if |s| >= width then s else PadStart([fill] + s, width, fill)
  }

  /** The label `y-m` for a year text `y` and a two-digit month text `m`: the dash is third
      from the end and `y` is everything before it. */
  function JoinLabel(y: string, m: string): (r: string)
    requires |m| == 2 && IsDigit(m[0]) && IsDigit(m[1])
    ensures |r| == |y| + 3 && r[|r| - 3] == '-'
    ensures IsDigit(r[|r| - 2]) && IsDigit(r[|r| - 1])
    ensures r[..|r| - 3] == y
    ensures DigitValue(r[|r| - 2]) == DigitValue(m[0]) && DigitValue(r[|r| - 1]) == DigitValue(m[1])
  {
    var r := y + "-" + m;
    assert r[..|r| - 3] == y;
    r
  }

  /** The chart label `${year}-${String(month).padStart(2, '0')}` of a (year, month) group. */
  function MonthLabel(year: int, month: int): (r: string)
    requires 1 <= month <= 12
    ensures |r| >= 3 && r[|r| - 3] == '-'
    ensures IsDigit(r[|r| - 2]) && IsDigit(r[|r| - 1])
    ensures r[..|r| - 3] == IntToString(year)
  {
    JoinLabel(IntToString(year), MonthDigits(month))
  }

  /** Value of the output of `IntToString`: an optional minus sign followed by digits. */
  function ParseInt(s: string): Option<int> {
    if |s| > 0 && s[0] == '-' && forall i :: 1 <= i < |s| ==> IsDigit(s[i]) then
      Some(-(ParseNat(s[1..]) as int))
    else if forall i :: 0 <= i < |s| ==> IsDigit(s[i]) then
      Some(ParseNat(s) as int)
    else None
  }

  /** A string of digits reads back as its value. */
  lemma {:induction false} ParseDigits(s: string)
    requires forall i :: 0 <= i < |s| ==> IsDigit(s[i])
    ensures ParseInt(s) == Some(ParseNat(s) as int)
  {
    if |s| > 0 {
      assert s[0] != '-';
    }
  }

  /** A minus sign followed by digits reads back as the negated value. */
  lemma {:induction false} ParseNegative(s: string)
    requires |s| > 0 && s[0] == '-'
    requires forall i :: 1 <= i < |s| ==> IsDigit(s[i])
    ensures ParseInt(s) == Some(-(ParseNat(s[1..]) as int))
  {
  }

  lemma {:induction false} IntToStringRoundTrip(n: int)
    ensures ParseInt(IntToString(n)) == Some(n)
  {
    var r := IntToString(n);
    if n < 0 {
      var digits := NatToString(-n);
      assert r == "-" + digits;
      assert r[1..] == digits;
      ParseNegative(r);
      NatToStringRoundTrip(-n);
    } else {
      ParseDigits(r);
      NatToStringRoundTrip(n);
    }
  }

  /** Reads a `YYYY-MM` label back into its year and month; the inverse of `MonthLabel`. */
  function ParseMonthLabel(s: string): Option<(int, int)> {
    if |s| >= 4 && s[|s| - 3] == '-' && IsDigit(s[|s| - 2]) && IsDigit(s[|s| - 1]) then
      var m: int := DigitValue(s[|s| - 2]) * 10 + DigitValue(s[|s| - 1]);
      match ParseInt(s[..|s| - 3])
      case Some(y) => Some((y, m))
      case None => None
    else None
  }

  /** `String(month)` for a month: one or two digits spelling it. */
  lemma {:induction false} MonthText(month: int)
    requires 1 <= month <= 12
    ensures 1 <= |IntToString(month)| <= 2
    ensures forall i :: 0 <= i < |IntToString(month)| ==> IsDigit(IntToString(month)[i])
    ensures ParseNat(IntToString(month)) == month
  {
    NatToStringRoundTrip(month);
    if month >= 10 {
      assert NatToString(month) == NatToString(month / 10) + [DigitChar(month % 10)];
    }
  }

  /** The value of two digits. */
  lemma {:induction false} TwoDigitValue(t: string)
    requires |t| == 2 && IsDigit(t[0]) && IsDigit(t[1])
    ensures ParseNat(t) == DigitValue(t[0]) * 10 + DigitValue(t[1])
  {
    var head := t[..1];
    assert head[..0] == [];
    assert ParseNat(head) == DigitValue(t[0]);
    assert t[..|t| - 1] == head;
  }

  /** The value of one digit. */
  lemma {:induction false} OneDigitValue(t: string)
    requires |t| == 1 && IsDigit(t[0])
    ensures ParseNat(t) == DigitValue(t[0])
  {
    assert t[..0] == [];
  }

  /** `padStart(2, '0')` on one or two digits: two digits of the same value. */
  lemma {:induction false} PadTwo(t: string)
    requires 1 <= |t| <= 2
    requires forall i :: 0 <= i < |t| ==> IsDigit(t[i])
    ensures var m := PadStart(t, 2, '0');
      |m| == 2 && IsDigit(m[0]) && IsDigit(m[1]) && DigitValue(m[0]) * 10 + DigitValue(m[1]) == ParseNat(t)
  {
    if |t| == 2 {
      assert PadStart(t, 2, '0') == t;
      TwoDigitValue(t);
    } else {
      var m := ['0', t[0]];
      assert PadStart(t, 2, '0') == PadStart(['0'] + t, 2, '0') == m;
      OneDigitValue(t);
      assert DigitValue(m[0]) == 0;
    }
  }

  /** `String(month).padStart(2, '0')`: two digits spelling the month. */
  function MonthDigits(month: int): (m: string)
    requires 1 <= month <= 12
    ensures |m| == 2 && IsDigit(m[0]) && IsDigit(m[1]) && DigitValue(m[0]) * 10 + DigitValue(m[1]) == month
  {
    MonthText(month);
    PadTwo(IntToString(month));
    PadStart(IntToString(month), 2, '0')
  }

  /** Reading `y-m` back, for a year text `y` and a two-digit `m` of value `month`. */
  lemma {:induction false} ParseLabel(y: string, m: string, year: int, month: int)
    requires |y| > 0 && ParseInt(y) == Some(year)
    requires |m| == 2 && IsDigit(m[0]) && IsDigit(m[1]) && DigitValue(m[0]) * 10 + DigitValue(m[1]) == month
    ensures ParseMonthLabel(JoinLabel(y, m)) == Some((year, month))
  {
  }

  /** Labels determine their month: distinct (year, month) groups get distinct labels. */
  lemma {:induction false} MonthLabelRoundTrip(year: int, month: int)
    requires 1 <= month <= 12
    ensures ParseMonthLabel(MonthLabel(year, month)) == Some((year, month))
  {
    IntToStringRoundTrip(year);
    ParseLabel(IntToString(year), MonthDigits(month), year, month);
  }

  lemma {:induction false} MonthLabelInjective(y1: int, m1: int, y2: int, m2: int)
    requires 1 <= m1 <= 12 && 1 <= m2 <= 12
    ensures MonthLabel(y1, m1) == MonthLabel(y2, m2) <==> y1 == y2 && m1 == m2
  {
    MonthLabelRoundTrip(y1, m1);
    MonthLabelRoundTrip(y2, m2);
  }
}

=== FILE: schema.dfy ===
/**
 * The document validator of models/schema.ts: what Mongoose checks before a transaction or
 * budget is written, with defaults applied first. Inputs hold `None` for a field that is
 * `undefined`. On a path without a default, `null` is checked exactly like `undefined` (the
 * `required` and `enum` validators treat the two alike), so `None` stands for it there too; a
 * `null` on a defaulted path gets no default and is refused by `required`, which the callers
 * decide before building an input.
 */
module Schema {
  import opened Wrappers
  import opened Types

  // ---------------------------------------------------------------- transactions

  /** A transaction as handed to `Transaction.create`, before defaults and validation. */
  datatype TransactionInput = TransactionInput(
    amount: Option<real>,
    description: Option<string>,
    date: Option<Date>,
    category: Option<string>,
    kind: Option<string>)

  /** The reasons a document is refused, one per failing field validator. */
  datatype Violation =
    | AmountRequired
    | DescriptionRequired
    | CategoryRequired
    | CategoryNotInEnum
    | TypeNotInEnum
    | MonthRequired
    | MonthBelowMin
    | MonthAboveMax
    | YearRequired

  datatype Validated<+T> = Valid(doc: T) | Invalid(violations: set<Violation>)

  /** Mongoose's `required` on a string: present and not the empty string. */
  predicate PresentString(s: Option<string>) {
    s.Some? && s.value != ""
  }

  /** The `category` after its default: `'Other'` when absent. */
  function CategoryWithDefault(s: Option<string>): (r: string)
    ensures s.None? ==> r == Name(DefaultCategory)
    ensures s.Some? ==> r == s.value
  {
    match s
    case None => "Other"
    case Some(v) => v
  }

  const AllViolations: set<Violation> := {
    AmountRequired, DescriptionRequired, CategoryRequired, CategoryNotInEnum, TypeNotInEnum,
    MonthRequired, MonthBelowMin, MonthAboveMax, YearRequired
  }

  /** The field validators of `TransactionSchema`, run on the document after its defaults. */
  function TransactionViolations(input: TransactionInput): (v: set<Violation>)
    ensures AmountRequired in v <==> input.amount.None?
    ensures DescriptionRequired in v <==> !PresentString(input.description)
    ensures CategoryRequired in v <==> input.category == Some("")
    ensures CategoryNotInEnum in v <==> CategoryWithDefault(input.category) !in CategoryNames
    ensures TypeNotInEnum in v <==> input.kind.Some? && ParseTxType(input.kind.value).None?
    ensures v <= {AmountRequired, DescriptionRequired, CategoryRequired, CategoryNotInEnum, TypeNotInEnum}
  {
    CategoryTypeIsCategoryNames(CategoryWithDefault(input.category));
    set x | x in AllViolations && TransactionFails(x, input)
  }

  /** Whether the validator behind violation `x` rejects a transaction document. */
  predicate TransactionFails(x: Violation, input: TransactionInput) {
    var category := CategoryWithDefault(input.category);
    match x
    case AmountRequired => input.amount.None?
    case DescriptionRequired => !PresentString(input.description)
    case CategoryRequired => category == ""
    case CategoryNotInEnum => ParseCategory(category).None?
    case TypeNotInEnum => input.kind.Some? && ParseTxType(input.kind.value).None?
    case _ => false
  }

  /**
   * Defaults then validation for a new transaction: `date` defaults to the current time `now`
   * and `category` to `'Other'`. A document that passes is an `ITransaction` carrying exactly
   * the given fields.
   */
  function ValidateTransaction(input: TransactionInput, id: string, now: Date): (r: Validated<Transaction>)
    ensures r.Valid? <==>
      && input.amount.Some?
      && PresentString(input.description)
      && CategoryWithDefault(input.category) in CategoryNames
      && (input.kind.None? || input.kind.value == "income" || input.kind.value == "expense")
    ensures r.Invalid? ==> r.violations != {} && r.violations == TransactionViolations(input)
    ensures r.Valid? ==> HasValidKind(r.doc) && r.doc.id == id
    ensures r.Valid? ==> Some(r.doc.amount) == input.amount && Some(r.doc.description) == input.description
    ensures r.Valid? ==> Name(r.doc.category) == CategoryWithDefault(input.category)
    ensures r.Valid? ==> r.doc.date == input.date.GetOr(now) && r.doc.kind == input.kind
  {
    var v := TransactionViolations(input);
    var category := ParseCategory(CategoryWithDefault(input.category));
    if v == {} then
      assert AmountRequired !in v && DescriptionRequired !in v && CategoryNotInEnum !in v;
      CategoryTypeIsCategoryNames(CategoryWithDefault(input.category));
      Valid(Transaction(id, input.amount.value, input.description.value, input.date.GetOr(now),
        category.value, input.kind))
    else
      Invalid(v)
  }

  /** Without an amount or a description the document is refused. */
  lemma {:induction false} AmountAndDescriptionRequired(input: TransactionInput, id: string, now: Date)
    requires input.amount.None? || input.description.None?
    ensures ValidateTransaction(input, id, now).Invalid?
    ensures input.amount.None? ==> AmountRequired in ValidateTransaction(input, id, now).violations
    ensures input.description.None? ==> DescriptionRequired in ValidateTransaction(input, id, now).violations
  {
  }

  /** Leaving the category out stores `'Other'`, and that default passes the enum check. */
  lemma {:induction false} DefaultCategoryPasses(input: TransactionInput, id: string, now: Date)
    requires input.category.None?
    requires input.amount.Some? && PresentString(input.description) && input.kind.None?
    ensures ValidateTransaction(input, id, now).Valid?
    ensures ValidateTransaction(input, id, now).doc.category == Other
  {
    CategoryNamesDistinct();
    NameRoundTrip(Other);
  }

  /** A category outside `CATEGORIES` is refused. */
  lemma {:induction false} UnknownCategoryRefused(input: TransactionInput, id: string, now: Date)
    requires input.category.Some? && input.category.value !in CategoryNames
    ensures ValidateTransaction(input, id, now).Invalid?
    ensures CategoryNotInEnum in ValidateTransaction(input, id, now).violations
  {
  }

  /** The `type` tag may be left out; given, it must be `'income'` or `'expense'`. */
  lemma {:induction false} TypeTagOptional(input: TransactionInput, id: string, now: Date)
    requires input.amount.Some? && PresentString(input.description)
    requires CategoryWithDefault(input.category) in CategoryNames
    ensures ValidateTransaction(input, id, now).Valid? <==>
      input.kind.None? || input.kind == Some("income") || input.kind == Some("expense")
  {
  }

  /** Nothing ties the tag to the sign: an `'income'` tag on a negative amount is accepted,
      and so is an `'expense'` tag on a positive one. */
  lemma {:induction false} TypeNotTiedToSign(input: TransactionInput, id: string, now: Date)
    requires input.amount.Some? && PresentString(input.description)
    requires CategoryWithDefault(input.category) in CategoryNames
    requires input.kind == Some("income") || input.kind == Some("expense")
    ensures ValidateTransaction(input, id, now).Valid?
    ensures ValidateTransaction(input, id, now).doc.amount == input.amount.value
  {
  }

  // ---------------------------------------------------------------- budgets

  /** A budget as handed to the model, before validation. */
  datatype BudgetInput = BudgetInput(
    category: Option<string>,
    amount: Option<real>,
    month: Option<real>,
    year: Option<real>)

  /** The field validators of `BudgetSchema` (which declares no defaults). */
  function BudgetViolations(input: BudgetInput): (v: set<Violation>)
    ensures CategoryRequired in v <==> !PresentString(input.category)
    ensures CategoryNotInEnum in v <==> input.category.Some? && input.category.value !in CategoryNames
    ensures AmountRequired in v <==> input.amount.None?
    ensures MonthRequired in v <==> input.month.None?
    ensures MonthBelowMin in v <==> input.month.Some? && input.month.value < 1.0
    ensures MonthAboveMax in v <==> input.month.Some? && input.month.value > 12.0
    ensures YearRequired in v <==> input.year.None?
    ensures DescriptionRequired !in v && TypeNotInEnum !in v
  {
    CategoryTypeIsCategoryNames(input.category.GetOr(""));
    set x | x in AllViolations && BudgetFails(x, input)
  }

  /** Whether the validator behind violation `x` rejects a budget document. */
  predicate BudgetFails(x: Violation, input: BudgetInput) {
    match x
    case CategoryRequired => !PresentString(input.category)
    case CategoryNotInEnum => input.category.Some? && ParseCategory(input.category.value).None?
    case AmountRequired => input.amount.None?
    case MonthRequired => input.month.None?
    case MonthBelowMin => input.month.Some? && input.month.value < 1.0
    case MonthAboveMax => input.month.Some? && input.month.value > 12.0
    case YearRequired => input.year.None?
    case _ => false
  }

  /** A budget is stored only with a category from `CATEGORIES`, an amount, a year and a month
      in [1, 12]; what is stored is then an `IBudget`. */
  function ValidateBudget(input: BudgetInput, id: string): (r: Validated<IBudget>)
    ensures r.Valid? <==>
      && input.category.Some? && input.category.value in CategoryNames
      && input.amount.Some? && input.year.Some?
      && input.month.Some? && 1.0 <= input.month.value <= 12.0
    ensures r.Invalid? ==> r.violations != {} && r.violations == BudgetViolations(input)
    ensures r.Valid? ==> Name(r.doc.category) == input.category.value && r.doc.id == id
    ensures r.Valid? ==>
      (r.doc.amount == input.amount.value && r.doc.month == input.month.value && r.doc.year == input.year.value)
  {
    var v := BudgetViolations(input);
    if v == {} then
      assert CategoryRequired !in v && CategoryNotInEnum !in v;
      CategoryTypeIsCategoryNames(input.category.value);
      var c := ParseCategory(input.category.value).value;
      Valid(Budget(id, c, input.amount.value, input.month.value, input.year.value))
    else
      Invalid(v)
  }

  /** The month bounds are inclusive: 1 and 12 pass, 0 and 13 do not. */
  lemma {:induction false} BudgetMonthBounds(input: BudgetInput, id: string)
    requires input.category == Some("Housing") && input.amount.Some? && input.year.Some?
    ensures input.month == Some(1.0) || input.month == Some(12.0) ==> ValidateBudget(input, id).Valid?
    ensures input.month == Some(0.0) ==> MonthBelowMin in ValidateBudget(input, id).violations
    ensures input.month == Some(13.0) ==> MonthAboveMax in ValidateBudget(input, id).violations
  {
    assert CategoryNames[2] == "Housing";
  }
}

=== FILE: stats_route.dfy ===
/**
 * `GET /api/stats` (app/api/stats/route.ts). Its pipelines differ from the dashboard's on
 * purpose: months carry the net signed sum, a category's value is the magnitude of its net
 * sum with no expense filter, and the field called `totalExpenses` is the net sum of all
 * amounts.
 */
module StatsRoute {
  import opened Wrappers
  import opened Types
  import opened Format
  import opened Aggregation
  import opened SummaryCards

  // ---------------------------------------------------------------- monthly net sums

  /** One entry of `formattedMonthlyData`: the `YYYY-MM` label and the month's net amount. */
  datatype MonthlyAmount = MonthlyAmount(name: string, amount: real)

  function AmountOf(m: MonthlyAmount): real {
    m.amount
  }

  /** One `monthlyData.map` step. */
  function LabelNet(g: Grouped<MonthKey>): MonthlyAmount {
    MonthlyAmount(MonthLabel(g.key.year, g.key.month), g.total)
  }

  /**
   * The monthly pipeline (`$group` by year and month with `totalAmount: { $sum: "$amount" }`,
   * `$sort` ascending) and its formatting: one entry per month in which a transaction falls,
   * in strictly ascending month order, labelled `${year}-${MM}` by `MonthLabel` (so the label
   * reads back as its month),
   * holding the net signed sum of the amounts in that month.
   */
  function MonthlyNet(ts: seq<Transaction>): (r: seq<MonthlyAmount>)
    ensures |r| == |MonthBuckets(ts)|
    ensures forall i :: 0 <= i < |r| ==>
      r[i].name == MonthLabel(MonthBuckets(ts)[i].key.year, MonthBuckets(ts)[i].key.month)
    ensures forall i :: 0 <= i < |r| ==>
      ParseMonthLabel(r[i].name) == Some((MonthBuckets(ts)[i].key.year, MonthBuckets(ts)[i].key.month as int))
    ensures forall i :: 0 <= i < |r| ==>
      r[i].amount == SumWhere(ts, MonthOf, MonthBuckets(ts)[i].key, Amount)
    ensures forall i, j :: 0 <= i < j < |r| ==> r[i].name != r[j].name
  {
    var bs := MonthBuckets(ts);
    var r := MapSeq(SumEach(bs, Amount), LabelNet);
    MonthlyNetFacts(ts, bs, r);
    r
  }

  lemma {:induction false} MonthlyNetFacts(ts: seq<Transaction>, bs: seq<Bucket<MonthKey>>, r: seq<MonthlyAmount>)
    requires forall i, j :: 0 <= i < j < |bs| ==> MonthKeyLt(bs[i].key, bs[j].key)
    requires forall i :: 0 <= i < |bs| ==> bs[i].members == Members(ts, MonthOf, bs[i].key)
    requires r == MapSeq(SumEach(bs, Amount), LabelNet)
    ensures |r| == |bs|
    ensures forall i :: 0 <= i < |r| ==> r[i].name == MonthLabel(bs[i].key.year, bs[i].key.month)
    ensures forall i :: 0 <= i < |r| ==>
      ParseMonthLabel(r[i].name) == Some((bs[i].key.year, bs[i].key.month as int))
    ensures forall i :: 0 <= i < |r| ==> r[i].amount == SumWhere(ts, MonthOf, bs[i].key, Amount)
    ensures forall i, j :: 0 <= i < j < |r| ==> r[i].name != r[j].name
  {
    var gs := SumEach(bs, Amount);
    forall i | 0 <= i < |r|
      ensures r[i].name == MonthLabel(bs[i].key.year, bs[i].key.month)
      ensures ParseMonthLabel(r[i].name) == Some((bs[i].key.year, bs[i].key.month as int))
      ensures r[i].amount == SumWhere(ts, MonthOf, bs[i].key, Amount)
    {
      assert r[i] == LabelNet(gs[i]);
      MonthLabelRoundTrip(bs[i].key.year, bs[i].key.month);
      MembersSum(ts, MonthOf, bs[i].key, Amount);
    }
    forall i, j | 0 <= i < j < |r|
      ensures r[i].name != r[j].name
    {
      assert r[i] == LabelNet(gs[i]) && r[j] == LabelNet(gs[j]);
      MonthLabelInjective(bs[i].key.year, bs[i].key.month, bs[j].key.year, bs[j].key.month);
    }
  }

  // ---------------------------------------------------------------- categories

  /** `Math.abs(item.totalAmount)` on one category group. */
  function AbsTotal(g: Grouped<Category>): Grouped<Category> {
    Grouped(g.key, Abs(g.total))
  }

  /** The categories that occur in `ts`, expense or not. */
  function Categories(ts: seq<Transaction>): set<Category> {
    set j | 0 <= j < |ts| :: ts[j].category
  }

  /**
   * The category pipeline (`$group` by category with `$sum: "$amount"`, no `$match`) and its
   * formatting, keyed by category: every category that occurs, valued at the magnitude of its
   * net signed sum, so income and expenses in one category cancel.
   */
  function CategoryValues(ts: seq<Transaction>): (m: map<Category, real>)
    ensures m.Keys == Categories(ts)
    ensures forall c :: c in m ==> m[c] == Abs(SumWhere(ts, CategoryOf, c, Amount)) && m[c] >= 0.0
  {
    var g := GroupBy(ts, CategoryOf);
    var gs := MapSeq(SumEach(g, Amount), AbsTotal);
    CategoryValuesFacts(ts, g, gs);
    ToMap(gs)
  }

  lemma {:induction false} CategoryValuesFacts(ts: seq<Transaction>, g: seq<Bucket<Category>>, gs: seq<Grouped<Category>>)
    requires g == GroupBy(ts, CategoryOf)
    requires gs == MapSeq(SumEach(g, Amount), AbsTotal)
    ensures (set i | 0 <= i < |gs| :: gs[i].key) == Categories(ts)
    ensures forall i :: 0 <= i < |gs| ==> gs[i].total == Abs(SumWhere(ts, CategoryOf, gs[i].key, Amount))
    ensures forall i, j :: 0 <= i < j < |gs| ==> gs[i].key != gs[j].key
  {
    CategoryValueEntries(ts, g, SumEach(g, Amount), gs);
    CategoryValueKeys(ts, g, gs);
  }

  lemma {:induction false} CategoryValueEntries(ts: seq<Transaction>, g: seq<Bucket<Category>>, sums: seq<Grouped<Category>>, gs: seq<Grouped<Category>>)
    requires g == GroupBy(ts, CategoryOf)
    requires sums == SumEach(g, Amount)
    requires gs == MapSeq(sums, AbsTotal)
    ensures |gs| == |g|
    ensures forall i :: 0 <= i < |gs| ==> gs[i].key == g[i].key
    ensures forall i :: 0 <= i < |gs| ==> gs[i].total == Abs(SumWhere(ts, CategoryOf, gs[i].key, Amount))
  {
    forall i | 0 <= i < |gs|
      ensures gs[i].key == g[i].key
      ensures gs[i].total == Abs(SumWhere(ts, CategoryOf, gs[i].key, Amount))
    {
      assert gs[i] == AbsTotal(sums[i]);
      MembersSum(ts, CategoryOf, g[i].key, Amount);
    }
  }

  lemma {:induction false} CategoryValueKeys(ts: seq<Transaction>, g: seq<Bucket<Category>>, gs: seq<Grouped<Category>>)
    requires g == GroupBy(ts, CategoryOf)
    requires |gs| == |g|
    requires forall i :: 0 <= i < |gs| ==> gs[i].key == g[i].key
    ensures (set i | 0 <= i < |gs| :: gs[i].key) == Categories(ts)
    ensures forall i, j :: 0 <= i < j < |gs| ==> gs[i].key != gs[j].key
  {
    GroupKeys(g, ts, CategoryOf);
    RelabelledKeys(g, gs);
    OccurringCategories(ts);
  }

  lemma {:induction false} RelabelledKeys(g: seq<Bucket<Category>>, gs: seq<Grouped<Category>>)
    requires |gs| == |g|
    requires forall i :: 0 <= i < |gs| ==> gs[i].key == g[i].key
    ensures (set i | 0 <= i < |gs| :: gs[i].key) == (set i | 0 <= i < |g| :: g[i].key)
  {
    var a := set i | 0 <= i < |gs| :: gs[i].key;
    var b := set i | 0 <= i < |g| :: g[i].key;
    forall k | k in b
      ensures k in a
    {
      var i :| 0 <= i < |g| && g[i].key == k;
      assert gs[i].key == k;
    }
  }

  lemma {:induction false} OccurringCategories(ts: seq<Transaction>)
    ensures (set j | 0 <= j < |ts| :: CategoryOf(ts[j])) == Categories(ts)
  {
    var a := set j | 0 <= j < |ts| :: CategoryOf(ts[j]);
    forall c | c in Categories(ts)
      ensures c in a
    {
      var j :| 0 <= j < |ts| && ts[j].category == c;
      assert CategoryOf(ts[j]) == c;
    }
  }

  // ---------------------------------------------------------------- total

  /** The `_id: null` group key: every transaction falls into one group. */
  function NullKey(t: Transaction): () {
    ()
  }

  /**
   * `totalExpenses.length > 0 ? totalExpenses[0].total : 0` over the `_id: null` group: despite
   * its name, the net signed sum of all amounts, and 0 for an empty collection.
   */
  function TotalField(ts: seq<Transaction>): (r: real)
    ensures r == Sum(ts, Amount)
    ensures |ts| == 0 ==> r == 0.0
  {
    var g := GroupBy(ts, NullKey);
    var gs := SumEach(g, Amount);
    SingleGroup(ts, g);
    GroupByPreservesSum(ts, NullKey, Amount);
    SumEachTotal(g, Amount);
    if |gs| > 0 then
      assert gs == [gs[0]];
      SumSingleton(gs[0], TotalOf);
      gs[0].total
    else 0.0
  }

  /** Any two buckets keyed by `null` share their key. */
  lemma {:induction false} UnitKeysCollide(g: seq<Bucket<()>>)
    ensures |g| > 1 ==> !DistinctKeys(g)
  {
    if |g| > 1 {
      assert g[0].key == g[1].key;
    }
  }

  /** Grouping by `null` makes one group when there is a transaction and none otherwise. */
  lemma {:induction false} SingleGroup(ts: seq<Transaction>, g: seq<Bucket<()>>)
    requires DistinctKeys(g)
    requires Covers(g, ts, NullKey)
    requires forall i :: 0 <= i < |g| ==> FirstIndex(ts, NullKey, g[i].key) < |ts|
    ensures |g| == if |ts| == 0 then 0 else 1
  {
    UnitKeysCollide(g);
    if |ts| > 0 {
      assert exists i :: 0 <= i < |g| && g[i].key == NullKey(ts[0]);
    }
    if |g| > 0 {
      assert FirstIndex(ts, NullKey, g[0].key) < |ts|;
    }
  }

  /** The monthly entries add up to `totalExpenses`. */
  lemma {:induction false} MonthlyNetSumsToTotal(ts: seq<Transaction>)
    ensures Sum(MonthlyNet(ts), AmountOf) == TotalField(ts)
  {
    var bs := MonthBuckets(ts);
    var gs := SumEach(bs, Amount);
    SumMapSeq(gs, LabelNet, AmountOf, TotalOf);
    SumEachTotal(bs, Amount);
    MonthBucketsPreserveSum(ts, Amount);
  }

  /** The endpoint's `totalExpenses` is the dashboard's balance, not its total expenses: it
      equals the total expenses only when the income is exactly twice the expenses. */
  lemma {:induction false} TotalFieldIsBalance(ts: seq<Transaction>)
    ensures TotalField(ts) == Balance(ts)
    ensures TotalField(ts) == TotalExpenses(ts) <==> TotalIncome(ts) == 2.0 * TotalExpenses(ts)
  {
    BalanceIsNetSum(ts);
  }

  // ---------------------------------------------------------------- response

  datatype StatsResponse =
    | StatsOk(monthly: seq<MonthlyAmount>, categories: map<Category, real>, totalExpenses: real, recent: seq<Transaction>)
    | StatsError(status: int, error: string)

  /**
   * `GET` over the collection, `None` when a database call throws: a failure answers 500 with
   * the fixed message, otherwise the four results, the recent list being the five newest.
   */
  function Stats(store: Option<seq<Transaction>>): (r: StatsResponse)
    ensures store.None? <==> r.StatsError?
    ensures r.StatsError? ==> r.status == 500 && r.error == "Failed to fetch stats"
    ensures store.Some? ==> r.StatsOk? && r.totalExpenses == Sum(store.value, Amount)
    ensures store.Some? ==> r.monthly == MonthlyNet(store.value) && Sum(r.monthly, AmountOf) == r.totalExpenses
    ensures store.Some? ==> r.categories == CategoryValues(store.value)
    ensures store.Some? ==> forall c :: c in r.categories ==> r.categories[c] >= 0.0
    ensures store.Some? ==> r.recent == Recent(store.value)
    ensures store.Some? ==> |r.recent| <= 5 && multiset(r.recent) <= multiset(store.value)
    ensures store.Some? ==> forall i, j :: 0 <= i < j < |r.recent| ==> DateLe(r.recent[j].date, r.recent[i].date)
  {
    match store
    case None => StatsError(500, "Failed to fetch stats")
    case Some(ts) =>
      var monthly, categories, total, recent := MonthlyNet(ts), CategoryValues(ts), TotalField(ts), Recent(ts);
      StatsTotals(ts, monthly, total);
      StatsCategories(ts, categories);
      StatsRecent(ts, recent);
      StatsOk(monthly, categories, total, recent)
  }

  /** The monthly entries add up to the total field, which is the net sum. */
  lemma {:induction false} StatsTotals(ts: seq<Transaction>, monthly: seq<MonthlyAmount>, total: real)
    requires monthly == MonthlyNet(ts) && total == TotalField(ts)
    ensures total == Sum(ts, Amount) && Sum(monthly, AmountOf) == total
  {
    MonthlyNetSumsToTotal(ts);
  }

  /** `StatsCategories` and `StatsRecent` restate facts of `CategoryValues` and `Recent` about
      named values, so that `Stats` stays within the verifier's resource limit. */
  lemma {:induction false} StatsCategories(ts: seq<Transaction>, categories: map<Category, real>)
    requires categories == CategoryValues(ts)
    ensures forall c :: c in categories ==> categories[c] >= 0.0
  {
  }

  lemma {:induction false} StatsRecent(ts: seq<Transaction>, recent: seq<Transaction>)
    requires recent == Recent(ts)
    ensures |recent| <= 5 && multiset(recent) <= multiset(ts)
    ensures forall i, j :: 0 <= i < j < |recent| ==> DateLe(recent[j].date, recent[i].date)
  {
  }

  /** An income and an expense of the same size in one category cancel to a value of 0, where
      the dashboard would show the expense. */
  lemma {:induction false} CategoriesCancel(ts: seq<Transaction>, income: Transaction, expense: Transaction)
    requires ts == [income, expense]
    requires income.amount == 50.0 && expense.amount == -50.0
    requires income.category == expense.category
    ensures CategoryValues(ts)[income.category] == 0.0
  {
    assert ts[0].category == income.category;
    assert income.category in Categories(ts);
    var c := income.category;
    assert ts[..1] == [income];
    assert SumWhere([income], CategoryOf, c, Amount) == 50.0 by {
      assert [income][..0] == [];
    }
    assert SumWhere(ts, CategoryOf, c, Amount) == 0.0;
  }

  /** A lone expense of 30 makes `totalExpenses` -30. */
  lemma {:induction false} LoneExpenseIsNegative(ts: seq<Transaction>, expense: Transaction)
    requires ts == [expense]
    requires expense.amount == -30.0
    ensures Stats(Some(ts)).totalExpenses == -30.0
  {
    SumSingleton(expense, Amount);
  }
}

=== FILE: summary_cards.dfy ===
/**
 * The dashboard's summary cards (components/summary-cards.tsx): total income, total expenses,
 * balance, per-category spending and the "Top Spending" category.
 */
module SummaryCards {
  import opened Wrappers
  import opened Types
  import opened Aggregation

  /** `transactions.filter(t => t.amount > 0).reduce((sum, t) => sum + t.amount, 0)`. */
  function TotalIncome(ts: seq<Transaction>): (r: real)
    ensures r >= 0.0
    ensures r == Sum(ts, PositivePart)
  {
    IncomeIsConditionalSum(ts);
    SumNonNegative(ts, PositivePart);
    Sum(Match(ts, IsIncome), Amount)
  }

  lemma {:induction false} IncomeIsConditionalSum(ts: seq<Transaction>)
    ensures Sum(Match(ts, IsIncome), Amount) == Sum(ts, PositivePart)
  {
    if |ts| > 0 {
      IncomeIsConditionalSum(ts[..|ts| - 1]);
      var t := ts[|ts| - 1];
      var m := Match(ts[..|ts| - 1], IsIncome);
      if IsIncome(t) {
        assert (m + [t])[..|m|] == m;
      }
    }
  }

  /** `transactions.filter(t => t.amount < 0).reduce((sum, t) => sum + Math.abs(t.amount), 0)`. */
  function TotalExpenses(ts: seq<Transaction>): (r: real)
    ensures r >= 0.0
    ensures r == -Sum(ts, NegativePart)
  {
    ExpensesIsConditionalSum(ts);
    SumNonPositive(ts, NegativePart);
    Sum(Match(ts, IsExpense), Magnitude)
  }

  lemma {:induction false} ExpensesIsConditionalSum(ts: seq<Transaction>)
    ensures Sum(Match(ts, IsExpense), Magnitude) == -Sum(ts, NegativePart)
  {
    if |ts| > 0 {
      ExpensesIsConditionalSum(ts[..|ts| - 1]);
      var t := ts[|ts| - 1];
      var m := Match(ts[..|ts| - 1], IsExpense);
      if IsExpense(t) {
        assert (m + [t])[..|m|] == m;
      }
    }
  }

  /** `totalIncome - totalExpenses`. */
  function Balance(ts: seq<Transaction>): real {
    TotalIncome(ts) - TotalExpenses(ts)
  }

  predicate IsNonZero(t: Transaction) {
    t.amount != 0.0
  }

  /** The balance is the net sum of all amounts; zero amounts, which neither card counts,
      change nothing. */
  lemma {:induction false} BalanceIsNetSum(ts: seq<Transaction>)
    ensures Balance(ts) == Sum(ts, Amount)
    ensures Balance(ts) == Balance(Match(ts, IsNonZero))
  {
    SumSplitsBySign(ts);
    SumSplitsBySign(Match(ts, IsNonZero));
    NonZeroFilterKeepsSum(ts);
  }

  lemma {:induction false} NonZeroFilterKeepsSum(ts: seq<Transaction>)
    ensures Sum(Match(ts, IsNonZero), Amount) == Sum(ts, Amount)
  {
    if |ts| > 0 {
      NonZeroFilterKeepsSum(ts[..|ts| - 1]);
      var t := ts[|ts| - 1];
      var m := Match(ts[..|ts| - 1], IsNonZero);
      if IsNonZero(t) {
        assert (m + [t])[..|m|] == m;
      }
    }
  }

  /** The transactions the category totals look at: those with a negative amount. */
  function Expenses(ts: seq<Transaction>): seq<Transaction> {
    Match(ts, IsExpense)
  }

  /** Reference definition: the magnitude of all expenses in category `c`. */
  function CategorySpend(ts: seq<Transaction>, c: Category): real {
    if |ts| == 0 then 0.0 else CategorySpend(ts[..|ts| - 1], c) + SpendOn(ts[|ts| - 1], c)
  }

  /** What one transaction adds to the spending of category `c`. */
  function SpendOn(t: Transaction, c: Category): real {
    if t.amount < 0.0 && t.category == c then -t.amount else 0.0
  }

  /** The categories that have at least one expense. */
  function ExpenseCategories(ts: seq<Transaction>): set<Category> {
    set j | 0 <= j < |ts| && ts[j].amount < 0.0 :: ts[j].category
  }

  /** A category has positive spending exactly when it has an expense. */
  lemma {:induction false} CategorySpendPositive(ts: seq<Transaction>, c: Category)
    ensures CategorySpend(ts, c) >= 0.0
    ensures CategorySpend(ts, c) > 0.0 <==> c in ExpenseCategories(ts)
  {
    if |ts| > 0 {
      var p := ts[..|ts| - 1];
      var t := ts[|ts| - 1];
      CategorySpendPositive(p, c);
      assert ExpenseCategories(ts) == ExpenseCategories(p) + (if t.amount < 0.0 then {t.category} else {}) by {
        forall x | x in ExpenseCategories(ts)
          ensures x in ExpenseCategories(p) + (if t.amount < 0.0 then {t.category} else {})
        {
          var j :| 0 <= j < |ts| && ts[j].amount < 0.0 && ts[j].category == x;
          if j < |p| {
            assert p[j] == ts[j];
          }
        }
        forall x | x in ExpenseCategories(p)
          ensures x in ExpenseCategories(ts)
        {
          var j :| 0 <= j < |p| && p[j].amount < 0.0 && p[j].category == x;
          assert ts[j] == p[j];
        }
      }
    }
  }

  /** Appending a transaction appends it to the expenses exactly when it is one. */
  lemma {:induction false} ExpensesSnoc(p: seq<Transaction>, t: Transaction)
    ensures Expenses(p + [t]) == if IsExpense(t) then Expenses(p) + [t] else Expenses(p)
  {
    assert (p + [t])[..|p|] == p;
  }

  /** Appending a transaction to a key's members extends them exactly when the key matches. */
  lemma {:induction false} MembersSnoc(e: seq<Transaction>, t: Transaction, c: Category)
    ensures Members(e + [t], CategoryOf, c) == if t.category == c then Members(e, CategoryOf, c) + [t] else Members(e, CategoryOf, c)
  {
    assert (e + [t])[..|e|] == e;
  }

  /** The expenses of a category, summed by magnitude, are its reference spending. */
  lemma {:induction false} BucketSumIsCategorySpend(ts: seq<Transaction>, c: Category)
    ensures Sum(Members(Expenses(ts), CategoryOf, c), Magnitude) == CategorySpend(ts, c)
  {
    if |ts| > 0 {
      BucketSumIsCategorySpend(ts[..|ts| - 1], c);
      BucketSumStep(ts, c);
    }
  }

  /** Removing the last transaction removes its spending from the grouped sum. */
  lemma {:induction false} BucketSumStep(ts: seq<Transaction>, c: Category)
    requires |ts| > 0
    ensures Sum(Members(Expenses(ts), CategoryOf, c), Magnitude) ==
      Sum(Members(Expenses(ts[..|ts| - 1]), CategoryOf, c), Magnitude) + SpendOn(ts[|ts| - 1], c)
  {
    var p := ts[..|ts| - 1];
    var t := ts[|ts| - 1];
    assert ts == p + [t];
    ExpensesSnoc(p, t);
    var e := Expenses(p);
    var ms := Members(e, CategoryOf, c);
    if IsExpense(t) {
      MembersSnoc(e, t, c);
      if t.category == c {
        SumAppend(ms, [t], Magnitude);
        SumSingleton(t, Magnitude);
      }
    }
  }

  /**
   * `categoryTotals`: the reduce that skips amounts >= 0 and adds `Math.abs(amount)` to the
   * entry of the transaction's category. One entry per category that has an expense, each
   * category once, holding that category's total spending; entries appear in the order in
   * which their category first occurs among the expenses; and together they account for
   * exactly the total expenses.
   */
  function CategoryTotals(ts: seq<Transaction>): (r: seq<Grouped<Category>>)
    ensures forall i, j :: 0 <= i < j < |r| ==> r[i].key != r[j].key
    ensures forall i :: 0 <= i < |r| ==> r[i].total == CategorySpend(ts, r[i].key) && r[i].total > 0.0
    ensures (set i | 0 <= i < |r| :: r[i].key) == ExpenseCategories(ts)
    ensures forall i, j :: 0 <= i < j < |r| ==>
      FirstIndex(Expenses(ts), CategoryOf, r[i].key) < FirstIndex(Expenses(ts), CategoryOf, r[j].key)
    ensures Sum(r, TotalOf) == TotalExpenses(ts)
  {
    var e := Expenses(ts);
    var g := GroupBy(e, CategoryOf);
    var r := SumEach(g, Magnitude);
    CategoryTotalsFacts(ts, g, r);
    SumEachTotal(g, Magnitude);
    GroupByPreservesSum(e, CategoryOf, Magnitude);
    r
  }

  lemma {:induction false} CategoryTotalsFacts(ts: seq<Transaction>, g: seq<Bucket<Category>>, r: seq<Grouped<Category>>)
    requires g == GroupBy(Expenses(ts), CategoryOf)
    requires r == SumEach(g, Magnitude)
    ensures forall i :: 0 <= i < |r| ==> r[i].total == CategorySpend(ts, r[i].key) && r[i].total > 0.0
    ensures (set i | 0 <= i < |r| :: r[i].key) == ExpenseCategories(ts)
  {
    forall i | 0 <= i < |r|
      ensures r[i].total == CategorySpend(ts, r[i].key) > 0.0
      ensures r[i].key in ExpenseCategories(ts)
    {
      BucketOfExpenses(ts, g, i);
    }
    forall j | 0 <= j < |ts| && ts[j].amount < 0.0
      ensures exists i :: 0 <= i < |r| && r[i].key == ts[j].category
    {
      var i := ExpenseHasBucket(ts, g, j);
      assert r[i].key == ts[j].category;
    }
    KeysAreExpenseCategories(ts, r);
  }

  lemma {:induction false} KeysAreExpenseCategories(ts: seq<Transaction>, r: seq<Grouped<Category>>)
    requires forall i :: 0 <= i < |r| ==> r[i].key in ExpenseCategories(ts)
    requires forall j :: 0 <= j < |ts| && ts[j].amount < 0.0 ==> exists i :: 0 <= i < |r| && r[i].key == ts[j].category
    ensures (set i | 0 <= i < |r| :: r[i].key) == ExpenseCategories(ts)
  {
    var keys := set i | 0 <= i < |r| :: r[i].key;
    var cats := ExpenseCategories(ts);
    forall c | c in cats
      ensures c in keys
    {
      var j :| 0 <= j < |ts| && ts[j].amount < 0.0 && ts[j].category == c;
      var i :| 0 <= i < |r| && r[i].key == c;
    }
  }

  /** A bucket of the grouped expenses belongs to a category with expenses and holds its
      whole spending. */
  lemma {:induction false} BucketOfExpenses(ts: seq<Transaction>, g: seq<Bucket<Category>>, i: int)
    requires g == GroupBy(Expenses(ts), CategoryOf)
    requires 0 <= i < |g|
    ensures g[i].key in ExpenseCategories(ts)
    ensures Sum(g[i].members, Magnitude) == CategorySpend(ts, g[i].key) > 0.0
  {
    var c := g[i].key;
    BucketSumIsCategorySpend(ts, c);
    var p := FirstIndex(Expenses(ts), CategoryOf, c);
    var j := ExpenseOrigin(ts, p);
    assert ts[j].category == c;
    CategorySpendPositive(ts, c);
  }

  /** Every expense comes from a transaction of the list with a negative amount. */
  lemma {:induction false} ExpenseOrigin(ts: seq<Transaction>, p: int) returns (j: nat)
    requires 0 <= p < |Expenses(ts)|
    ensures j < |ts| && ts[j] == Expenses(ts)[p] && ts[j].amount < 0.0
  {
    var e := Expenses(ts);
    assert e[p] in multiset(ts);
    j :| 0 <= j < |ts| && ts[j] == e[p];
    assert IsExpense(e[p]);
  }

  /** Every expense's category has a bucket among the grouped expenses. */
  lemma {:induction false} ExpenseHasBucket(ts: seq<Transaction>, g: seq<Bucket<Category>>, j: int) returns (i: nat)
    requires g == GroupBy(Expenses(ts), CategoryOf)
    requires 0 <= j < |ts| && ts[j].amount < 0.0
    ensures i < |g| && g[i].key == ts[j].category
  {
    var e := Expenses(ts);
    assert IsExpense(ts[j]);
    assert ts[j] in e;
    var p :| 0 <= p < |e| && e[p] == ts[j];
    assert CategoryOf(e[p]) == ts[j].category;
    assert Covers(g, e, CategoryOf);
    assert exists k :: 0 <= k < |g| && g[k].key == CategoryOf(e[p]);
    i :| 0 <= i < |g| && g[i].key == CategoryOf(e[p]);
  }

  /** The `topCategory` / `topCategoryAmount` pair; `category` is `None` for the "None" label. */
  datatype Top = Top(category: Option<Category>, amount: real)

  /**
   * The `forEach` over `Object.entries(categoryTotals)`, starting from ("None", 0) and taking an
   * entry only when its amount is strictly greater than the best so far: the result is the
   * FIRST entry holding the largest amount, or "None" when no amount exceeds 0.
   */
  function TopCategory(totals: seq<Grouped<Category>>): (r: Top)
    ensures r.amount >= 0.0
    ensures forall i :: 0 <= i < |totals| ==> totals[i].total <= r.amount
    ensures r.category.None? <==> forall i :: 0 <= i < |totals| ==> totals[i].total <= 0.0
    ensures r.category.None? ==> r.amount == 0.0
    ensures r.category.Some? ==>
      exists k :: 0 <= k < |totals| && totals[k].key == r.category.value &&
        totals[k].total == r.amount && (forall j :: 0 <= j < k ==> totals[j].total < r.amount)
  {
    if |totals| == 0 then Top(None, 0.0)
    else
      var best := TopCategory(totals[..|totals| - 1]);
      var e := totals[|totals| - 1];
      if e.total > best.amount then Top(Some(e.key), e.total) else best
  }

  /** Everything the four cards display. */
  datatype Summary = Summary(
    totalIncome: real,
    totalExpenses: real,
    balance: real,
    topCategory: Option<Category>,
    topCategoryAmount: real)

  /**
   * The four cards for a transaction list. Income and expenses are non-negative, the balance
   * is the net sum of all amounts, the top category is "None" exactly when there is no expense,
   * and otherwise it is a category with the largest spending, the one whose first expense comes
   * earliest among the expenses when several tie.
   */
  function Summarize(ts: seq<Transaction>): (s: Summary)
    ensures s.totalIncome == TotalIncome(ts) >= 0.0 && s.totalExpenses == TotalExpenses(ts) >= 0.0
    ensures s.balance == s.totalIncome - s.totalExpenses == Sum(ts, Amount)
    ensures s.topCategory.None? <==> forall j :: 0 <= j < |ts| ==> ts[j].amount >= 0.0
    ensures s.topCategory.None? ==> s.topCategoryAmount == 0.0
    ensures s.topCategory.Some? ==> s.topCategoryAmount == CategorySpend(ts, s.topCategory.value) > 0.0
    ensures forall c :: CategorySpend(ts, c) <= s.topCategoryAmount
    ensures forall c :: s.topCategory.Some? && CategorySpend(ts, c) == s.topCategoryAmount ==>
      FirstIndex(Expenses(ts), CategoryOf, s.topCategory.value) <= FirstIndex(Expenses(ts), CategoryOf, c)
  {
    var totals := CategoryTotals(ts);
    var top := TopCategory(totals);
    BalanceIsNetSum(ts);
    TopCategoryFacts(ts, totals, top);
    Summary(TotalIncome(ts), TotalExpenses(ts), Balance(ts), top.category, top.amount)
  }

  lemma {:induction false} TopCategoryFacts(ts: seq<Transaction>, totals: seq<Grouped<Category>>, top: Top)
    requires forall i :: 0 <= i < |totals| ==> totals[i].total == CategorySpend(ts, totals[i].key)
    requires (set i | 0 <= i < |totals| :: totals[i].key) == ExpenseCategories(ts)
    requires forall i, j :: 0 <= i < j < |totals| ==>
      FirstIndex(Expenses(ts), CategoryOf, totals[i].key) < FirstIndex(Expenses(ts), CategoryOf, totals[j].key)
    requires top == TopCategory(totals)
    ensures top.category.None? <==> forall j :: 0 <= j < |ts| ==> ts[j].amount >= 0.0
    ensures top.category.Some? ==> top.amount == CategorySpend(ts, top.category.value) > 0.0
    ensures forall c :: CategorySpend(ts, c) <= top.amount
    ensures forall c :: top.category.Some? && CategorySpend(ts, c) == top.amount ==>
      FirstIndex(Expenses(ts), CategoryOf, top.category.value) <= FirstIndex(Expenses(ts), CategoryOf, c)
  {
    if top.category.None? {
      TopNoneMeansNoExpense(ts, totals);
    } else {
      var k :| 0 <= k < |totals| && totals[k].key == top.category.value &&
        totals[k].total == top.amount && (forall j :: 0 <= j < k ==> totals[j].total < top.amount);
      TopSomeIsSpent(ts, totals, k);
      forall c
        ensures CategorySpend(ts, c) <= top.amount
        ensures CategorySpend(ts, c) == top.amount ==>
          FirstIndex(Expenses(ts), CategoryOf, top.category.value) <= FirstIndex(Expenses(ts), CategoryOf, c)
      {
        TopBeatsCategory(ts, totals, k, c);
      }
    }
  }

  /** When no total is positive, no transaction is an expense. */
  lemma {:induction false} TopNoneMeansNoExpense(ts: seq<Transaction>, totals: seq<Grouped<Category>>)
    requires forall i :: 0 <= i < |totals| ==> totals[i].total == CategorySpend(ts, totals[i].key)
    requires (set i | 0 <= i < |totals| :: totals[i].key) == ExpenseCategories(ts)
    requires forall i :: 0 <= i < |totals| ==> totals[i].total <= 0.0
    ensures forall j :: 0 <= j < |ts| ==> ts[j].amount >= 0.0
    ensures forall c :: CategorySpend(ts, c) <= 0.0
  {
    forall c
      ensures CategorySpend(ts, c) <= 0.0
    {
      CategorySpendPositive(ts, c);
    }
    forall j | 0 <= j < |ts|
      ensures ts[j].amount >= 0.0
    {
      if ts[j].amount < 0.0 {
        assert ts[j].category in ExpenseCategories(ts);
        CategorySpendPositive(ts, ts[j].category);
      }
    }
  }

  /** The chosen entry's category has positive spending, so some transaction is an expense. */
  lemma {:induction false} TopSomeIsSpent(ts: seq<Transaction>, totals: seq<Grouped<Category>>, k: nat)
    requires forall i :: 0 <= i < |totals| ==> totals[i].total == CategorySpend(ts, totals[i].key)
    requires (set i | 0 <= i < |totals| :: totals[i].key) == ExpenseCategories(ts)
    requires k < |totals|
    ensures totals[k].total > 0.0
    ensures exists j :: 0 <= j < |ts| && ts[j].amount < 0.0
  {
    assert totals[k].key in ExpenseCategories(ts);
    CategorySpendPositive(ts, totals[k].key);
    var j :| 0 <= j < |ts| && ts[j].amount < 0.0 && ts[j].category == totals[k].key;
  }

  /** The first entry `k` with the largest total beats or ties every category, and on a tie its
      first expense comes no later. */
  lemma {:induction false} TopBeatsCategory(ts: seq<Transaction>, totals: seq<Grouped<Category>>, k: nat, c: Category)
    requires forall i :: 0 <= i < |totals| ==> totals[i].total == CategorySpend(ts, totals[i].key)
    requires (set i | 0 <= i < |totals| :: totals[i].key) == ExpenseCategories(ts)
    requires forall i, j :: 0 <= i < j < |totals| ==>
      FirstIndex(Expenses(ts), CategoryOf, totals[i].key) < FirstIndex(Expenses(ts), CategoryOf, totals[j].key)
    requires k < |totals| && totals[k].total > 0.0
    requires forall i :: 0 <= i < |totals| ==> totals[i].total <= totals[k].total
    requires forall j :: 0 <= j < k ==> totals[j].total < totals[k].total
    ensures CategorySpend(ts, c) <= totals[k].total
    ensures CategorySpend(ts, c) == totals[k].total ==>
      FirstIndex(Expenses(ts), CategoryOf, totals[k].key) <= FirstIndex(Expenses(ts), CategoryOf, c)
  {
    CategorySpendPositive(ts, c);
    if CategorySpend(ts, c) > 0.0 {
      var m :| 0 <= m < |totals| && totals[m].key == c;
      if CategorySpend(ts, c) == totals[k].total {
        assert k <= m;
      }
    }
  }

  /** With no transactions every card shows zero and the top category is "None". */
  lemma {:induction false} EmptySummary()
    ensures Summarize([]) == Summary(0.0, 0.0, 0.0, None, 0.0)
  {
  }

  lemma {:induction false} SumOfThree<T>(a: T, b: T, c: T, f: T -> real)
    ensures Sum([a, b, c], f) == f(a) + f(b) + f(c)
  {
    assert [a, b, c][..2] == [a, b] && [a, b][..1] == [a];
    SumSingleton(a, f);
    assert Sum([a, b], f) == Sum([a], f) + f(b);
    assert Sum([a, b, c], f) == Sum([a, b], f) + f(c);
  }

  lemma {:induction false} SpendOfTwo(a: Transaction, b: Transaction, c: Category)
    ensures CategorySpend([a, b], c) == SpendOn(a, c) + SpendOn(b, c)
  {
    assert [a, b][..1] == [a] && [a][..0] == [];
    assert CategorySpend([a], c) == CategorySpend([], c) + SpendOn(a, c);
    assert CategorySpend([a, b], c) == CategorySpend([a], c) + SpendOn(b, c);
  }

  lemma {:induction false} SpendOfThree(a: Transaction, b: Transaction, d: Transaction, c: Category)
    ensures CategorySpend([a, b, d], c) == SpendOn(a, c) + SpendOn(b, c) + SpendOn(d, c)
  {
    assert [a, b, d][..2] == [a, b];
    SpendOfTwo(a, b, c);
  }

  /** An income of 2000 and expenses of 50 (Food & Dining) and 30 (Transportation) give income
      2000, expenses 80, balance 1920 and Food & Dining as the top category. */
  lemma {:induction false} SalaryGroceriesBus(salary: Transaction, groceries: Transaction, bus: Transaction)
    requires salary.amount == 2000.0
    requires groceries.amount == -50.0 && groceries.category == FoodAndDining
    requires bus.amount == -30.0 && bus.category == Transportation
    ensures Summarize([salary, groceries, bus]) == Summary(2000.0, 80.0, 1920.0, Some(FoodAndDining), 50.0)
  {
    var ts := [salary, groceries, bus];
    var s := Summarize(ts);
    SumOfThree(salary, groceries, bus, PositivePart);
    SumOfThree(salary, groceries, bus, NegativePart);
    SumOfThree(salary, groceries, bus, Amount);
    assert s.totalIncome == 2000.0 && s.totalExpenses == 80.0 && s.balance == 1920.0;
    SalaryGroceriesBusTop(salary, groceries, bus, s);
  }

  lemma {:induction false} SalaryGroceriesBusTop(salary: Transaction, groceries: Transaction, bus: Transaction, s: Summary)
    requires salary.amount == 2000.0
    requires groceries.amount == -50.0 && groceries.category == FoodAndDining
    requires bus.amount == -30.0 && bus.category == Transportation
    requires s == Summarize([salary, groceries, bus])
    ensures s.topCategory == Some(FoodAndDining) && s.topCategoryAmount == 50.0
  {
    assert [salary, groceries, bus][1].amount < 0.0;
    LargestOfThree(salary, groceries, bus, s.topCategory.value, s.topCategoryAmount);
  }

  /** The only category of the three transactions reaching Food & Dining's spending is itself. */
  lemma {:induction false} LargestOfThree(salary: Transaction, groceries: Transaction, bus: Transaction, c: Category, amount: real)
    requires salary.amount == 2000.0
    requires groceries.amount == -50.0 && groceries.category == FoodAndDining
    requires bus.amount == -30.0 && bus.category == Transportation
    requires amount == CategorySpend([salary, groceries, bus], c)
    requires CategorySpend([salary, groceries, bus], FoodAndDining) <= amount
    ensures c == FoodAndDining && amount == 50.0
  {
    SpendOfThree(salary, groceries, bus, FoodAndDining);
    SpendOfThree(salary, groceries, bus, c);
  }

  /** On a tie the category whose expense comes first wins (the comparison is a strict `>`). */
  lemma {:induction false} TieGoesToFirst(bus: Transaction, lunch: Transaction)
    requires bus.amount == -30.0 && bus.category == Transportation
    requires lunch.amount == -30.0 && lunch.category == FoodAndDining
    ensures Summarize([bus, lunch]).topCategory == Some(Transportation)
  {
    var ts := [bus, lunch];
    var s := Summarize(ts);
    TopOfSummary(ts, s, 0, Transportation);
    TieBreak(bus, lunch, s.topCategory.value, s.topCategoryAmount);
  }

  /** With an expense present the top category is set, spends the top amount, and comes first
      among the categories spending as much as it. */
  lemma {:induction false} TopOfSummary(ts: seq<Transaction>, s: Summary, i: nat, c: Category)
    requires s == Summarize(ts)
    requires i < |ts| && ts[i].amount < 0.0
    ensures s.topCategory.Some? && s.topCategoryAmount == CategorySpend(ts, s.topCategory.value) > 0.0
    ensures CategorySpend(ts, c) == s.topCategoryAmount ==>
      FirstIndex(Expenses(ts), CategoryOf, s.topCategory.value) <= FirstIndex(Expenses(ts), CategoryOf, c)
  {
  }

  /** Of the two tied categories, only Transportation comes first among the expenses. */
  lemma {:induction false} TieBreak(bus: Transaction, lunch: Transaction, c: Category, amount: real)
    requires bus.amount == -30.0 && bus.category == Transportation
    requires lunch.amount == -30.0 && lunch.category == FoodAndDining
    requires amount == CategorySpend([bus, lunch], c) > 0.0
    requires CategorySpend([bus, lunch], Transportation) == amount ==>
      FirstIndex(Expenses([bus, lunch]), CategoryOf, c) <= FirstIndex(Expenses([bus, lunch]), CategoryOf, Transportation)
    ensures c == Transportation
  {
    SpendOfTwo(bus, lunch, c);
    SpendOfTwo(bus, lunch, Transportation);
    TieOrder(bus, lunch);
  }

  lemma {:induction false} TieOrder(bus: Transaction, lunch: Transaction)
    requires bus.amount == -30.0 && bus.category == Transportation
    requires lunch.amount == -30.0 && lunch.category == FoodAndDining
    ensures FirstIndex(Expenses([bus, lunch]), CategoryOf, Transportation) == 0
    ensures FirstIndex(Expenses([bus, lunch]), CategoryOf, FoodAndDining) == 1
  {
    var ts := [bus, lunch];
    ExpensesSnoc([], bus);
    ExpensesSnoc([bus], lunch);
    assert [bus] + [lunch] == ts;
    assert Expenses(ts) == ts;
    assert ts[..1] == [bus];
    assert FirstIndex([bus], CategoryOf, FoodAndDining) == 1;
  }
}

=== FILE: transaction_form.dfy ===
/**
 * The add/edit dialog of components/transaction-form.tsx: its initial state, per-field and
 * whole-form validation, edits, and the request the submit button sends. Rendering, loading
 * flags and the network round trip are not part of the model; the request is returned.
 */
module TransactionForm {
  import opened Wrappers
  import opened Types
  import opened Format

  /** The largest amount the form accepts. */
  const MaxAmount: real := 1000000.0

  const AmountNotPositive: string := "Amount must be greater than 0"
  const AmountTooLarge: string := "Amount is too large"
  const DescriptionRequired: string := "Description is required"

  /** The `formData` state: the amount as entered (its sign is decided by `kind` on submit). */
  datatype FormData = FormData(amount: real, description: string, date: Date, category: string, kind: string)

  /** The keys `handleChange` can be called with. */
  datatype Field = AmountField | DescriptionField | DateField | CategoryField | TypeField

  /** One `handleChange(field, value)` call, the value already of the field's type. */
  datatype Edit =
    | SetAmount(amount: real)
    | SetDescription(description: string)
    | SetDate(date: Date)
    | SetCategory(category: string)
    | SetType(kind: string)

  function FieldOf(e: Edit): Field {
    match e
    case SetAmount(_) => AmountField
    case SetDescription(_) => DescriptionField
    case SetDate(_) => DateField
    case SetCategory(_) => CategoryField
    case SetType(_) => TypeField
  }

  /** The component's whole state: form data and the `errors` object, whose keys grow as
      fields are edited. */
  datatype FormState = FormState(data: FormData, errors: map<Field, string>)

  // ---------------------------------------------------------------- validation

  /** `validateField("amount", v)`: the empty string when `v` lies in (0, 1000000]. */
  function AmountError(v: real): (r: string)
    ensures r == "" <==> 0.0 < v <= MaxAmount
    ensures v <= 0.0 ==> r == AmountNotPositive
    ensures v > MaxAmount ==> r == AmountTooLarge
  {
    if v <= 0.0 then AmountNotPositive
    else if v > MaxAmount then AmountTooLarge
    else ""
  }

  /** `validateField("description", s)`: an error exactly when `s` is blank. */
  function DescriptionError(s: string): (r: string)
    ensures r == "" <==> !IsBlank(s)
    ensures r != "" ==> r == DescriptionRequired
  {
    TrimEmptyIffBlank(s);
    if Trim(s) == "" then DescriptionRequired else ""
  }

  /** `validateField(field, value)` for one edit: only amount and description can fail; the
      amount is checked as entered, sign included. */
  function ValidateField(e: Edit): (r: string)
    ensures FieldOf(e) !in {AmountField, DescriptionField} ==> r == ""
    ensures e.SetAmount? ==> (r == "" <==> 0.0 < e.amount <= MaxAmount)
    ensures e.SetAmount? && e.amount <= 0.0 ==> r == AmountNotPositive
    ensures e.SetAmount? && e.amount > MaxAmount ==> r == AmountTooLarge
    ensures e.SetDescription? ==> (r == "" <==> !IsBlank(e.description))
    ensures e.SetDescription? && r != "" ==> r == DescriptionRequired
    ensures r == "" || r == AmountNotPositive || r == AmountTooLarge || r == DescriptionRequired
  {
    match e
    case SetAmount(v) => AmountError(v)
    case SetDescription(s) => DescriptionError(s)
    case _ => ""
  }

  /** `Object.values(errors).some(error => error)`: some message is non-empty. */
  predicate HasError(errors: map<Field, string>) {
    exists f :: f in errors && errors[f] != ""
  }

  /** The `newErrors` object `validateForm` builds: amount checked on its magnitude. */
  function FormErrors(data: FormData): (errors: map<Field, string>)
    ensures errors.Keys == {AmountField, DescriptionField}
    ensures errors[AmountField] == "" <==> 0.0 < Abs(data.amount) <= MaxAmount
    ensures errors[DescriptionField] == "" <==> !IsBlank(data.description)
    ensures errors[AmountField] == AmountError(Abs(data.amount))
    ensures errors[DescriptionField] == DescriptionError(data.description)
    ensures data.amount == 0.0 ==> errors[AmountField] == AmountNotPositive
    ensures Abs(data.amount) > MaxAmount ==> errors[AmountField] == AmountTooLarge
    ensures IsBlank(data.description) ==> errors[DescriptionField] == DescriptionRequired
  {
    map[AmountField := AmountError(Abs(data.amount)), DescriptionField := DescriptionError(data.description)]
  }

  /** `validateForm()`: the form passes exactly when the amount is non-zero of magnitude at
      most 1000000 and the description is not blank. */
  lemma {:induction false} ValidateFormIff(data: FormData)
    ensures !HasError(FormErrors(data)) <==> 0.0 < Abs(data.amount) <= MaxAmount && !IsBlank(data.description)
  {
    var errors := FormErrors(data);
    if !(0.0 < Abs(data.amount) <= MaxAmount) {
      assert AmountField in errors && errors[AmountField] != "";
    }
    if IsBlank(data.description) {
      assert DescriptionField in errors && errors[DescriptionField] != "";
    }
  }

  /** `isFormValid()`, which enables the submit button. */
  function IsFormValid(s: FormState): (r: bool)
    ensures r <==> Abs(s.data.amount) > 0.0 && !IsBlank(s.data.description) && !HasError(s.errors)
  {
    TrimEmptyIffBlank(s.data.description);
    !HasError(s.errors) && Abs(s.data.amount) > 0.0 && Trim(s.data.description) != ""
  }

  /** An enabled button submits whenever the amount is within the limit, and a form that
      passes `validateForm` with no pending messages enables the button. */
  lemma {:induction false} EnabledMeansValid(s: FormState)
    ensures IsFormValid(s) && Abs(s.data.amount) <= MaxAmount ==> !HasError(FormErrors(s.data))
    ensures !HasError(FormErrors(s.data)) && !HasError(s.errors) ==> IsFormValid(s)
  {
    ValidateFormIff(s.data);
    TrimEmptyIffBlank(s.data.description);
  }

  // ---------------------------------------------------------------- edits

  /** `setFormData({ ...formData, [field]: value })`. */
  function ApplyEdit(data: FormData, e: Edit): FormData {
    match e
    case SetAmount(v) => data.(amount := v)
    case SetDescription(v) => data.(description := v)
    case SetDate(v) => data.(date := v)
    case SetCategory(v) => data.(category := v)
    case SetType(v) => data.(kind := v)
  }

  /** The value an edit writes, read back from the form data. */
  function Get(data: FormData, f: Field): Edit {
    match f
    case AmountField => SetAmount(data.amount)
    case DescriptionField => SetDescription(data.description)
    case DateField => SetDate(data.date)
    case CategoryField => SetCategory(data.category)
    case TypeField => SetType(data.kind)
  }

  /** `handleChange(field, value)`: the edited field takes the value and its error entry takes
      its fresh message; every other field and every other error entry is unchanged. */
  function HandleChange(s: FormState, e: Edit): (r: FormState)
    ensures Get(r.data, FieldOf(e)) == e
    ensures forall f :: f != FieldOf(e) ==> Get(r.data, f) == Get(s.data, f)
    ensures r.errors.Keys == s.errors.Keys + {FieldOf(e)}
    ensures r.errors[FieldOf(e)] == ValidateField(e)
    ensures forall f :: f in s.errors && f != FieldOf(e) ==> r.errors[f] == s.errors[f]
  {
    ApplyEditFacts(s.data, e);
    FormState(ApplyEdit(s.data, e), s.errors[FieldOf(e) := ValidateField(e)])
  }

  /** An edit sets its own field and leaves the other four alone. */
  lemma {:induction false} ApplyEditFacts(data: FormData, e: Edit)
    ensures Get(ApplyEdit(data, e), FieldOf(e)) == e
    ensures forall f :: f != FieldOf(e) ==> Get(ApplyEdit(data, e), f) == Get(data, f)
  {
    forall f | f != FieldOf(e)
      ensures Get(ApplyEdit(data, e), f) == Get(data, f)
    {
      ApplyEditOther(data, e, f);
    }
  }

  lemma {:induction false} ApplyEditOther(data: FormData, e: Edit, f: Field)
    requires f != FieldOf(e)
    ensures Get(ApplyEdit(data, e), f) == Get(data, f)
  {
    match f
    case AmountField =>
    case DescriptionField =>
    case DateField =>
    case CategoryField =>
    case TypeField =>
  }

  /** Writing back what a field already holds changes nothing in the data. */
  lemma {:induction false} EditRoundTrip(data: FormData, f: Field)
    ensures ApplyEdit(data, Get(data, f)) == data
    ensures FieldOf(Get(data, f)) == f
  {
  }

  // ---------------------------------------------------------------- initial state

  /** `Partial<ITransaction>`, the transaction being edited when there is one. */
  datatype Existing = Existing(
    id: Option<string>,
    amount: Option<real>,
    description: Option<string>,
    date: Option<Date>,
    category: Option<string>)

  /** `!!transaction?._id`. */
  predicate IsEditing(tx: Option<Existing>) {
    tx.Some? && tx.value.id.Some? && tx.value.id.value != ""
  }

  /** `tx?.amount`, reading an absent transaction or amount as 0 (both falsy). */
  function ExistingAmount(tx: Option<Existing>): real {
    if tx.Some? && tx.value.amount.Some? then tx.value.amount.value else 0.0
  }

  /**
   * The `useState` initialiser: the existing values or the defaults 0, `""`, `now` and
   * `"Other"`; the type is `"expense"` exactly when the existing amount is negative.
   */
  function InitialForm(tx: Option<Existing>, now: Date): (r: FormData)
    ensures r.amount == ExistingAmount(tx)
    ensures tx.None? ==> r == FormData(0.0, "", now, "Other", "income")
    ensures r.kind == "expense" <==> ExistingAmount(tx) < 0.0
    ensures r.kind != "expense" ==> r.kind == "income"
    ensures r.category == "Other" || (tx.Some? && Some(r.category) == tx.value.category)
    ensures tx.Some? && tx.value.description.Some? ==> r.description == tx.value.description.value
    ensures tx.None? || tx.value.description.None? ==> r.description == ""
    ensures tx.Some? && tx.value.date.Some? ==> r.date == tx.value.date.value
    ensures tx.None? || tx.value.date.None? ==> r.date == now
    ensures tx.Some? && tx.value.category.Some? && tx.value.category.value != "" ==>
      r.category == tx.value.category.value
    ensures tx.None? || tx.value.category.None? || tx.value.category.value == "" ==> r.category == "Other"
  {
    var amount := ExistingAmount(tx);
    var description := if tx.Some? && tx.value.description.Some? then tx.value.description.value else "";
    var date := if tx.Some? && tx.value.date.Some? then tx.value.date.value else now;
    var category := if tx.Some? && tx.value.category.Some? && tx.value.category.value != "" then tx.value.category.value else "Other";
    FormData(amount, description, date, category, if amount != 0.0 && amount < 0.0 then "expense" else "income")
  }

  /** The initial errors object: both messages empty. */
  const InitialErrors: map<Field, string> := map[AmountField := "", DescriptionField := ""]

  /** The component's first state. It shows no message, and a new transaction starts with the
      submit button disabled (its amount is 0). */
  function InitialState(tx: Option<Existing>, now: Date): (s: FormState)
    ensures s.data == InitialForm(tx, now)
    ensures s.errors.Keys == {AmountField, DescriptionField} && !HasError(s.errors)
    ensures IsFormValid(s) <==> ExistingAmount(tx) != 0.0 && !IsBlank(s.data.description)
    ensures tx.None? ==> !IsFormValid(s)
  {
    FormState(InitialForm(tx, now), InitialErrors)
  }

  // ---------------------------------------------------------------- submit

  /** `adjustedAmount`: the magnitude of the entered amount, negated for an expense. */
  function AdjustedAmount(data: FormData): (r: real)
    ensures Abs(r) == Abs(data.amount)
    ensures data.kind == "expense" ==> r <= 0.0
    ensures data.kind != "expense" ==> r >= 0.0
  {
    if data.kind == "expense" then -Abs(data.amount) else Abs(data.amount)
  }

  /** Opening a transaction and saving it unchanged sends back its own amount. */
  lemma {:induction false} UnchangedAmountRoundTrip(tx: Existing, now: Date)
    ensures AdjustedAmount(InitialForm(Some(tx), now)) == ExistingAmount(Some(tx))
  {
  }

  /** The request body `JSON.stringify({ ...formData, amount: adjustedAmount, date })`. */
  datatype Payload = Payload(amount: real, description: string, date: Date, category: string, kind: string)

  /** A `fetch` call: its HTTP method, URL and JSON body. */
  datatype Request = Request(verb: string, url: string, body: Payload)

  /** What `handleSubmit` leaves behind: the errors `validateForm` set, and the request sent,
      if any. */
  datatype Submission = Submission(errors: map<Field, string>, request: Option<Request>)

  /**
   * `handleSubmit`: validate the whole form, stop when it fails, otherwise `PUT` to the
   * transaction's own URL when editing and `POST` to the collection when adding, with the
   * amount's sign set by the chosen type.
   */
  function Submit(data: FormData, tx: Option<Existing>): (r: Submission)
    ensures r.errors == FormErrors(data)
    ensures r.request.Some? <==> 0.0 < Abs(data.amount) <= MaxAmount && !IsBlank(data.description)
    ensures r.request.Some? ==> r.request.value.verb == (if IsEditing(tx) then "PUT" else "POST")
    ensures r.request.Some? && IsEditing(tx) ==> r.request.value.url == "/api/transactions/" + tx.value.id.value
    ensures r.request.Some? && !IsEditing(tx) ==> r.request.value.url == "/api/transactions"
    ensures r.request.Some? ==>
      var b := r.request.value.body;
      Abs(b.amount) == Abs(data.amount) && (b.amount < 0.0 <==> data.kind == "expense")
      && b.description == data.description && b.date == data.date
      && b.category == data.category && b.kind == data.kind
  {
    var errors := FormErrors(data);
    ValidateFormIff(data);
    if HasError(errors) then Submission(errors, None)
    else
      var url := if IsEditing(tx) then "/api/transactions/" + tx.value.id.value else "/api/transactions";
      var verb := if IsEditing(tx) then "PUT" else "POST";
      var body := Payload(AdjustedAmount(data), data.description, data.date, data.category, data.kind);
      Submission(errors, Some(Request(verb, url, body)))
  }

  /** Editing a stored transaction and saving without changes sends a `PUT` of the same amount,
      description and category, provided the stored amount is within the limit. */
  lemma {:induction false} SaveUnchangedRoundTrip(tx: Existing, now: Date)
    requires tx.id.Some? && tx.id.value != ""
    requires tx.amount.Some? && tx.amount.value != 0.0 && Abs(tx.amount.value) <= MaxAmount
    requires tx.description.Some? && !IsBlank(tx.description.value)
    ensures
      var r := Submit(InitialForm(Some(tx), now), Some(tx)).request;
      && r.Some? && r.value.verb == "PUT"
      && r.value.body.amount == tx.amount.value
      && r.value.body.description == tx.description.value
  {
    UnchangedAmountRoundTrip(tx, now);
  }
}

=== FILE: transactions_route.dfy ===
/**
 * `GET` and `POST /api/transactions` (app/api/transactions/route.ts): listing newest first,
 * creating from a JSON body guarded by a truthiness check, and the serialisation both apply.
 */
module TransactionsRoute {
  import opened Wrappers
  import opened Types
  import opened Aggregation
  import Schema

  // ---------------------------------------------------------------- responses

  datatype ResponseBody<+T> = Data(value: T) | ErrorMessage(error: string)

  /** A `NextResponse.json(body, { status })`; the status defaults to 200. */
  datatype Response<+T> = Response(status: int, body: ResponseBody<T>)

  // ---------------------------------------------------------------- serialisation

  /** The `type` field as serialised: kept when it is one of the two tags, dropped otherwise. */
  function NormalizeKind(kind: Option<string>): (r: Option<string>)
    ensures r.Some? <==> kind == Some("income") || kind == Some("expense")
    ensures r.Some? ==> r == kind
  {
    if kind == Some("income") || kind == Some("expense") then kind else None
  }

  /**
   * The object literal both handlers build from a stored document: `_id` as a string, amount,
   * description, date and category unchanged, and `type` normalised, so the result is an
   * `ITransaction`.
   */
  function Serialize(t: Transaction): (r: ITransaction)
    ensures r.id == t.id && r.amount == t.amount && r.description == t.description
    ensures r.date == t.date && r.category == t.category
    ensures r.kind.Some? <==> HasValidKind(t) && t.kind.Some?
    ensures r == t <==> HasValidKind(t)
  {
    t.(kind := NormalizeKind(t.kind))
  }

  /** Serialising twice is serialising once. */
  lemma {:induction false} SerializeIdempotent(t: Transaction)
    ensures Serialize(Serialize(t)) == Serialize(t)
  {
  }

  /** A document whose stored tag is anything else, such as `"refund"`, loses the tag. */
  lemma {:induction false} UnknownKindDropped(t: Transaction)
    requires t.kind == Some("refund")
    ensures Serialize(t).kind.None? && Serialize(t).amount == t.amount
  {
  }

  // ---------------------------------------------------------------- GET

  /**
   * `GET`: every stored transaction, serialised, newest first; `None` stands for a database
   * call that throws, which answers 500 with a fixed message.
   */
  function List(store: Option<seq<Transaction>>): (r: Response<seq<ITransaction>>)
    ensures store.None? ==> r == Response(500, ErrorMessage("Failed to fetch transactions"))
    ensures store.Some? ==> r.status == 200 && r.body.Data?
    ensures store.Some? ==> |r.body.value| == |store.value|
    ensures store.Some? ==>
      multiset(r.body.value) == multiset(MapSeq(store.value, Serialize))
    ensures store.Some? ==> forall i, j :: 0 <= i < j < |r.body.value| ==>
      DateLe(r.body.value[j].date, r.body.value[i].date)
  {
    match store
    case None => Response(500, ErrorMessage("Failed to fetch transactions"))
    case Some(ts) =>
      var sorted := SortNewestFirst(ts);
      var out := MapSeq(sorted, Serialize);
      MapSeqPermutation(sorted, ts, Serialize);
      assert |sorted| == |multiset(sorted)| == |multiset(ts)| == |ts|;
      assert forall i :: 0 <= i < |out| ==> out[i].date == sorted[i].date;
      Response(200, Data(out))
  }

  // ---------------------------------------------------------------- POST

  /** A JSON value as it arrives in the request body (`undefined` for a missing key). */
  datatype Json =
    | Undefined
    | Null
    | Bool(b: bool)
    | Number(n: real)
    | Str(s: string)
    | Composite

  /** JavaScript truthiness: `false`, `0`, `""`, `null` and `undefined` are falsy. */
  predicate Truthy(v: Json) {
    match v
    case Undefined => false
    case Null => false
    case Bool(b) => b
    case Number(n) => n != 0.0
    case Str(s) => s != ""
    case Composite => true
  }

  /** The fields of the parsed request body the handler reads. */
  datatype RequestBody = RequestBody(amount: Json, description: Json, date: Json, category: Json, kind: Json)

  /** `!body.amount || !body.description || !body.date || !body.category`. */
  predicate MissingRequired(body: RequestBody) {
    !Truthy(body.amount) || !Truthy(body.description) || !Truthy(body.date) || !Truthy(body.category)
  }

  /** Casting an optional string field: absent stays absent, a string is kept, anything else
      fails to cast. */
  function CastString(v: Json): (r: Option<Option<string>>)
    ensures r == Some(None) <==> v == Undefined || v == Null
    ensures v.Str? <==> r.Some? && r.value.Some?
    ensures v.Str? ==> r == Some(Some(v.s))
  {
    match v
    case Undefined => Some(None)
    case Null => Some(None)
    case Str(s) => Some(Some(s))
    case _ => None
  }

  /**
   * The body cast to the schema's field types, `None` when the document is refused before its
   * field validators matter: a field of the wrong JSON type, or `null` on `date` or `category`
   * (Mongoose applies a default only to an undefined path, and `required` refuses the null).
   * How a date string becomes a `Date` is the parameter `castDate`.
   */
  function CastBody(body: RequestBody, castDate: Json -> Option<Date>): (r: Option<Schema.TransactionInput>)
    ensures r.Some? ==> r.value.amount == (if body.amount.Number? then Some(body.amount.n) else None)
    ensures r.Some? ==> r.value.date == if body.date == Undefined then None else castDate(body.date)
    ensures r.Some? ==> Some(r.value.description) == CastString(body.description)
    ensures r.Some? ==> Some(r.value.category) == CastString(body.category)
    ensures r.Some? ==> Some(r.value.kind) == CastString(body.kind)
    ensures body.date == Null || body.category == Null ==> r.None?
    ensures r.None? <==>
      || !(body.amount.Number? || body.amount == Undefined || body.amount == Null)
      || CastString(body.description).None? || CastString(body.category).None?
      || CastString(body.kind).None? || body.category == Null || body.date == Null
      || (body.date != Undefined && castDate(body.date).None?)
  {
    var amount := if body.amount.Number? then Some(Some(body.amount.n))
      else if body.amount == Undefined || body.amount == Null then Some(None) else None;
    var date := if body.date == Undefined then Some(None)
      else if body.date != Null && castDate(body.date).Some? then Some(castDate(body.date)) else None;
    var description := CastString(body.description);
    var category := if body.category == Null then None else CastString(body.category);
    var kind := CastString(body.kind);
    if amount.Some? && date.Some? && description.Some? && category.Some? && kind.Some? then
      Some(Schema.TransactionInput(amount.value, description.value, date.value, category.value, kind.value))
    else None
  }

  const CreateFailed: ResponseBody<ITransaction> := ErrorMessage("Failed to create transaction")

  /**
   * `POST`. The body is parsed and the database connected before anything else: `body` is
   * `None` when `request.json()` throws or yields `null` (reading a field of it throws), and
   * `connectOk` is whether `dbConnect()` succeeded; either failure answers 500. Then 400 when a
   * required field is falsy; otherwise the body is cast, given its defaults (`now` for the
   * date) and validated, and written unless `writeOk` is false; any failure past the guard
   * answers 500, a stored document answers 201 with its serialisation.
   */
  function Create(body: Option<RequestBody>, connectOk: bool, castDate: Json -> Option<Date>, id: string,
                  now: Date, writeOk: bool): (r: Response<ITransaction>)
    ensures body.None? || !connectOk ==> r == Response(500, CreateFailed)
    ensures connectOk && body.Some? && MissingRequired(body.value) ==>
      r == Response(400, ErrorMessage("Missing required fields"))
    ensures r.status == 400 <==> connectOk && body.Some? && MissingRequired(body.value)
    ensures r.status == 500 ==> r.body == CreateFailed
    ensures r.status in {201, 400, 500}
    ensures r.status == 201 <==> r.body.Data?
    ensures r.status == 201 ==>
      && connectOk && writeOk && body.Some?
      && body.value.amount == Number(r.body.value.amount)
      && body.value.description == Str(r.body.value.description)
      && body.value.category == Str(Name(r.body.value.category))
      && Some(r.body.value.date) == castDate(body.value.date)
      && r.body.value.id == id
  {
    if body.None? || !connectOk then
      Response(500, CreateFailed)
    else if MissingRequired(body.value) then
      Response(400, ErrorMessage("Missing required fields"))
    else
      match CastBody(body.value, castDate)
      case None => Response(500, CreateFailed)
      case Some(input) =>
        match Schema.ValidateTransaction(input, id, now)
        case Invalid(_) => Response(500, CreateFailed)
        case Valid(doc) =>
          if writeOk then Response(201, Data(Serialize(doc)))
          else Response(500, CreateFailed)
  }

  /** A well-typed body with all four fields truthy and a valid category and tag is stored and
      answered with 201. */
  lemma {:induction false} CreateSucceeds(body: RequestBody, castDate: Json -> Option<Date>, id: string, now: Date)
    requires body.amount.Number? && body.amount.n != 0.0
    requires body.description.Str? && body.description.s != ""
    requires body.category.Str? && body.category.s in CategoryNames
    requires Truthy(body.date) && castDate(body.date).Some?
    requires body.kind == Undefined || body.kind == Str("income") || body.kind == Str("expense")
    ensures Create(Some(body), true, castDate, id, now, true).status == 201
    ensures Create(Some(body), true, castDate, id, now, true).body.value.kind == CastString(body.kind).value
  {
  }

  /** Once the body is parsed and the database connected, truthiness rejects an amount of 0
      and an empty description with 400. */
  lemma {:induction false} ZeroAmountOrEmptyDescriptionRejected(body: RequestBody, castDate: Json -> Option<Date>, id: string, now: Date, writeOk: bool)
    requires body.amount == Number(0.0) || body.description == Str("")
    ensures Create(Some(body), true, castDate, id, now, writeOk) == Response(400, ErrorMessage("Missing required fields"))
  {
  }

  /** The guard demands a category, so the schema's `'Other'` default is never used by this
      handler: once connected, a body without one is answered 400. */
  lemma {:induction false} DefaultCategoryUnreachable(body: RequestBody, castDate: Json -> Option<Date>, id: string, now: Date, writeOk: bool)
    requires body.category == Undefined
    ensures Create(Some(body), true, castDate, id, now, writeOk).status == 400
  {
  }
}

=== FILE: types.dfy ===
/**
 * The shapes of types/index.ts: the fixed category list, transactions and budgets.
 * Amounts are JavaScript numbers, modelled as `real` (no floating-point rounding).
 */
module Types {
  import opened Wrappers

  /** The fourteen values of `CATEGORIES`, in source order. */
  datatype Category =
    | FoodAndDining | Transportation | Housing | Utilities | Entertainment | Shopping
    | HealthAndMedical | PersonalCare | Education | Travel | GiftsAndDonations
    | Investments | Income | Other

  /** `CATEGORIES`: the category names exactly as stored and displayed. */
  const CategoryNames: seq<string> := [
    "Food & Dining", "Transportation", "Housing", "Utilities", "Entertainment", "Shopping",
    "Health & Medical", "Personal Care", "Education", "Travel", "Gifts & Donations",
    "Investments", "Income", "Other"
  ]

  /** The category a new transaction gets when none is given. */
  const DefaultCategory: Category := Other

  /** Position of a category in `CATEGORIES`. */
  function Index(c: Category): (i: nat)
    ensures i < |CategoryNames|
  {
    match c
    case FoodAndDining => 0
    case Transportation => 1
    case Housing => 2
    case Utilities => 3
    case Entertainment => 4
    case Shopping => 5
    case HealthAndMedical => 6
    case PersonalCare => 7
    case Education => 8
    case Travel => 9
    case GiftsAndDonations => 10
    case Investments => 11
    case Income => 12
    case Other => 13
  }

  /** The `CategoryType` string of a category. */
  function Name(c: Category): string {
    CategoryNames[Index(c)]
  }

  /** The category with a given `CategoryType` string, if the string is one. */
  function ParseCategory(s: string): (r: Option<Category>)
    ensures r.Some? ==> Name(r.value) == s
    ensures r.None? ==> s !in CategoryNames
  {
    if s == "Food & Dining" then Some(FoodAndDining)
    else if s == "Transportation" then Some(Transportation)
    else if s == "Housing" then Some(Housing)
    else if s == "Utilities" then Some(Utilities)
    else if s == "Entertainment" then Some(Entertainment)
    else if s == "Shopping" then Some(Shopping)
    else if s == "Health & Medical" then Some(HealthAndMedical)
    else if s == "Personal Care" then Some(PersonalCare)
    else if s == "Education" then Some(Education)
    else if s == "Travel" then Some(Travel)
    else if s == "Gifts & Donations" then Some(GiftsAndDonations)
    else if s == "Investments" then Some(Investments)
    else if s == "Income" then Some(Income)
    else if s == "Other" then Some(Other)
    else None
  }

  /** `CATEGORIES` has fourteen pairwise distinct entries, among them "Other" and "Income". */
  lemma {:induction false} CategoryNamesDistinct()
    ensures |CategoryNames| == 14
    ensures forall i, j :: 0 <= i < j < |CategoryNames| ==> CategoryNames[i] != CategoryNames[j]
    ensures Name(Other) == "Other" && Name(Income) == "Income"
    ensures "Other" in CategoryNames && "Income" in CategoryNames
  {
    forall i, j | 0 <= i < j < |CategoryNames|
      ensures CategoryNames[i] != CategoryNames[j]
    {
      var c :| Index(c) == i;
      assert ParseCategory(CategoryNames[i]) == Some(c) by { NameRoundTrip(c); }
      var d :| Index(d) == j;
      assert ParseCategory(CategoryNames[j]) == Some(d) by { NameRoundTrip(d); }
    }
  }

  /** `CategoryType` is exactly the set of strings in `CATEGORIES`: names and categories are in
      one-to-one correspondence. */
  lemma {:induction false} NameRoundTrip(c: Category)
    ensures ParseCategory(Name(c)) == Some(c)
  {
  }

  lemma {:induction false} CategoryTypeIsCategoryNames(s: string)
    ensures ParseCategory(s).Some? <==> s in CategoryNames
  {
    if s in CategoryNames {
      var i :| 0 <= i < |CategoryNames| && CategoryNames[i] == s;
    }
  }

  /** The two values of the optional `type` tag. */
  datatype TxType = IncomeTx | ExpenseTx

  function TxTypeName(t: TxType): string {
    match t
    case IncomeTx => "income"
    case ExpenseTx => "expense"
  }

  function ParseTxType(s: string): (r: Option<TxType>)
    ensures r.Some? <==> s == "income" || s == "expense"
    ensures r.Some? ==> TxTypeName(r.value) == s
  {
    if s == "income" then Some(IncomeTx)
    else if s == "expense" then Some(ExpenseTx)
    else None
  }

  type MonthNumber = m: int | 1 <= m <= 12 witness 1
  type DayNumber = d: int | 1 <= d <= 31 witness 1
  type MsOfDay = t: int | 0 <= t < 86_400_000

  /** A calendar instant, at the resolution the ordering by `date` needs. The calendar fields
      are what MongoDB's `$year` and `$month` extract. */
  datatype Date = Date(year: int, month: MonthNumber, day: DayNumber, ms: MsOfDay)

  /** Chronological order on dates (earlier or equal). */
  predicate DateLe(a: Date, b: Date) {
    || a.year < b.year
    || (a.year == b.year && a.month < b.month)
    || (a.year == b.year && a.month == b.month && a.day < b.day)
    || (a.year == b.year && a.month == b.month && a.day == b.day && a.ms <= b.ms)
  }

  /**
   * A transaction document. `kind` is the stored `type` field exactly as read back from the
   * store, which need not be one of the two allowed tags; `ITransaction` narrows it.
   */
  datatype Transaction = Transaction(
    id: string,
    amount: real,
    description: string,
    date: Date,
    category: Category,
    kind: Option<string>)

  /** The `type?: "income" | "expense"` field of `ITransaction`. */
  predicate HasValidKind(t: Transaction) {
    t.kind.None? || t.kind.value == "income" || t.kind.value == "expense"
  }

  type ITransaction = t: Transaction | HasValidKind(t)
    witness Transaction("", 0.0, "", Date(1970, 1, 1, 0), Other, None)

  /** A budget document: a spending limit for one category in one month. Month and year are
      JavaScript numbers, so nothing in the type makes them whole. */
  datatype Budget = Budget(id: string, category: Category, amount: real, month: real, year: real)

  /** `IBudget`, whose month is documented as lying in 1..12. */
  type IBudget = b: Budget | 1.0 <= b.month <= 12.0
    witness Budget("", Other, 0.0, 1.0, 1970.0)

  function Abs(x: real): (r: real)
    ensures r >= 0.0 && (r == x || r == -x)
  {
    if x < 0.0 then -x else x
  }
}

=== FILE: wrappers.dfy ===
/** Optional values: a JavaScript property that may be `undefined`. */
module Wrappers {

  datatype Option<+T> = None | Some(value: T) {

    /** The value, or `default` when absent (the `x || default` idiom on a present value). */
    function GetOr(default: T): T {
      match this
      case Some(v) => v
      case None => default
    }
  }
}
